=== FILE: README.md ===
# Admin mapping wizard — Dafny model

This project models the state machine of the admin configuration wizard,
which maps an organization to projects, each project to teams, and each team
to members. The repository holds two variants of that wizard, and both are
modelled:

- **Nested variant** (`s.tsx`, modules `NestedWizard` and `NestedProofs`).
  It has four steps: Organization, Projects, Teams & Members, Review. It keeps
  a list of selected projects, a project → teams map, a project → team →
  members map and a per-(project, team) "select all" latch. Saving appends one
  `Mapping` with a timestamp, and saved mappings are deleted by timestamp.
- **Flat variant** (`random.tsx`, modules `FlatWizard` and `FlatProofs`).
  It has three steps: Organization, Project & Teams, Review. It edits one
  current project with its teams and members. That project can be committed
  to a list of project mappings (upsert), loaded back for editing, or
  removed. Saving merges the current selection into the list and appends one
  `Configuration`. Saved configurations are deleted by id.

Shared pieces:
- `Seqs`: filter, toggle, parity of repeated toggles, first index, and
  de-duplication in first-occurrence order.
- `Catalog`: team records with rosters, first-match lookup, and the
  `Name (Loc)` display format.
- `Optional`: optional values.

Each React handler is one pure function from state to state. A handler that
issues several `setState` calls, including calls nested inside another
updater, is modelled as their combined effect applied at once. The browser
store is represented by the saved list inside the state; `Initial` receives
the list loaded at mount. The clock reading (`Date.now()`) and the flat
variant's string id are parameters. The catalog is passed in as an immutable
sequence of team records. Lookup returns the first team with the given name,
as `Array.prototype.find` does.

Each proofs module defines an `Event` type for the actions the page offers.
`Apply` maps an event to its handler. `Enabled` says on which step, and for
which project, the page renders the control for that event. For the nested
member and select-all events it also requires the team to be checked for
that project: the page passes `activeTeam` (s.tsx:796, 811, 826), and it is
the `activeTeam` effect (s.tsx:89-94) that guarantees this, so `Enabled`
takes that guarantee as given rather than deriving it. `Run`
applies a sequence of events. Invariants are proved for every run made of
enabled events.

The model keeps these behaviours of the code:
- In the nested variant, picking an organization changes nothing else. Only
  the flat variant clears the selection on an organization change.
- Two select-all clicks restore the latch, but not the member list. The list
  ends as the full roster if the latch was on, or empty if it was off.
- The select-all latch is never recomputed. Manual member edits, team
  removal and project removal all leave it as it is. Only `resetForm` clears
  it.
- Completeness at save time (every project has a team, every team has a
  member) is enforced only by the step gate. `NestedProofs.SessionInvariant`
  shows that this gate is enough.
- In the flat variant, saving can record the same project twice.
- Both `handleBack` handlers decrement without checking the step. Only the
  disabled Back button on step 0 prevents going below 0, so `Enabled`
  carries that guard.

## Model

| member | source | states |
|---|---|---|
| `Seqs.Filter` | s.tsx:139 | Keeps exactly the elements that satisfy the predicate, never grows, returns the input when every element is kept, and preserves absence of duplicates. |
| `Seqs.FilterAppend` | s.tsx:414 | Filtering distributes over concatenation, so the survivors keep their relative order. |
| `Seqs.Without` | s.tsx:139 | `filter(p => p !== x)` removes every occurrence of x, keeps every other element, and does nothing when x is absent. |
| `Seqs.WithoutAt` | s.tsx:139 | In a duplicate-free list, removing the element at i yields `s[..i] + s[i+1..]`, one element shorter. |
| `Seqs.Toggle` | random.tsx:218-224 | The includes/filter/append toggle flips membership of x, leaves every other element's membership alone, appends an absent x at the end, and never introduces a duplicate. |
| `Seqs.ToggleRemovesInPlace` | random.tsx:226-232 | Toggling a present element of a duplicate-free list removes just that element and keeps the rest in order. |
| `Seqs.ToggleTwiceAbsent` | random.tsx:218-224 | Toggling an absent element twice gives back the original list. |
| `Seqs.CountStep` | s.tsx:135-159 | The first toggle in a series changes the parity of the count for x exactly when it toggles x. |
| `Seqs.ToggleEach` | s.tsx:135-159 | A series of toggles keeps a duplicate-free list duplicate-free. |
| `Seqs.ToggleEachParity` | s.tsx:135-159 | After a series of toggles, x is present iff (present before) ⇔ (toggled an even number of times). |
| `Seqs.ToggleEachFromEmpty` | s.tsx:135-159 | Starting empty, the present elements are exactly those toggled an odd number of times, each once. |
| `Seqs.IndexOf` | random.tsx:182 | Returns the position of the first occurrence. |
| `Seqs.Dedup` | random.tsx:182 | `[...new Set(s)]` has no duplicates and exactly the elements of s. |
| `Seqs.DedupFirstOccurrenceOrder` | random.tsx:182 | The distinct elements come out ordered by their first occurrence in s. |
| `Seqs.DedupOfDistinct` | random.tsx:182 | A duplicate-free list passes through de-duplication unchanged. |
| `Catalog.FormatMember` | s.tsx:107-109 | The display string starts with the name and is longer than it exactly when a non-empty location exists; the rest is then ` (Loc)`. |
| `Catalog.FindTeam` | s.tsx:105 | `find` returns nothing iff no team has the name; otherwise it returns the first team with that name. |
| `Catalog.FormatRoster` | s.tsx:107-109 | Formats each roster entry in roster order, one string per entry. |
| `Catalog.RosterOf` | random.tsx:172-178 | Gives an empty list for an unknown team; otherwise the team's entries formatted, in order. |
| `NestedWizard.TeamMembersList` | s.tsx:104-112 | `getTeamMembersList` is `[]` for an unknown team and otherwise the formatted roster of the first team with that name, in order. |
| `NestedWizard.SelectOrganization` | s.tsx:456 | Picking an organization replaces it and changes nothing else, so there is no cascade in this variant. |
| `NestedWizard.ToggleProject` | s.tsx:135-159 | Flips the project's membership. Removing it deletes its keys from both maps. Adding it leaves both maps as they were. No other project's teams or members change, and the latches are untouched. |
| `NestedWizard.TeamCheckbox` | s.tsx:163-213 | Toggles the team in the project's list and leaves other projects alone. Removal deletes the team's member list and clears the active team if it was this team. Addition keeps an existing member list, otherwise creates an empty one, and makes the team active. Other teams' lists and the latches are untouched. |
| `NestedWizard.SetActiveTeam` | s.tsx:216-224 | After a row click the team is active and checked for the current project. A team already checked only becomes active and nothing else changes; an unchecked team is appended at the end of the current project's list. No member list of any (project, team) changes. |
| `NestedWizard.MemberToggle` | s.tsx:227-243 | Flips the member's membership in the (project, team) list and keeps it duplicate-free. Every other (project, team) list, the team lists and the latches are unchanged. |
| `NestedWizard.ToggleAllMembers` | s.tsx:246-270 | Flips the stored latch. With the latch off, the list becomes the full roster; with it on, the list becomes empty. Every other list and latch is unchanged. |
| `NestedWizard.StepValid` | s.tsx:333-355 | Step 0 needs an organization and step 1 a project. Step 2 holds iff every selected project passes `isProjectValid` (s.tsx:357-366). Every other step is valid. |
| `NestedWizard.BuildMembers` | s.tsx:377-381 | Has one entry per team of the list, each holding that team's member list (default `[]`). |
| `NestedWizard.BuildProjects` | s.tsx:375-387 | Has one entry per listed project, holding its teams (default `[]`) and a member map keyed by exactly those teams. |
| `NestedWizard.BuildMapping` | s.tsx:389-393 | The new mapping carries the organization and the timestamp. Its project keys are exactly the selected projects, with teams and members as `BuildProjects` states. |
| `NestedWizard.ResetForm` | s.tsx:402-411 | Returns to step 0 with every selection, the active team, the tab index and the latches empty, and keeps the saved list. |
| `NestedWizard.SaveConfiguration` | s.tsx:371-400 | Appends exactly one mapping (the one `BuildMapping` describes) after the unchanged earlier mappings, then resets the form. |
| `NestedWizard.SelectProjectTab` | s.tsx:273-276 | A tab click stores the index, so the project at that index becomes current, and clears the active team; nothing else changes. |
| `NestedWizard.Back` | s.tsx:292-294 | Goes back one step, unguarded, and changes nothing else. |
| `NestedWizard.Next` | s.tsx:279-290 | An invalid step leaves the state unchanged. A valid non-last step advances by one and changes nothing else. The valid last step appends the mapping and resets. |
| `NestedWizard.WithoutTimestamp` | s.tsx:414 | Keeps exactly the mappings with another timestamp, and returns the list unchanged when none matches. |
| `NestedWizard.DeleteMapping` | s.tsx:413-418 | Removes exactly the mappings with the timestamp and changes nothing else. |
| `NestedProofs.TeamCheckboxWellFormed` | s.tsx:163-213 | A team toggle on a selected project leaves no dangling member list and no duplicate team. |
| `NestedProofs.ToggleProjectWellFormed` | s.tsx:135-159 | A project toggle keeps every project with teams or members selected. |
| `NestedProofs.MemberToggleWellFormed` | s.tsx:227-243 | A member toggle on a checked team of a selected project keeps the cascade invariant. |
| `NestedProofs.ToggleAllWellFormed` | s.tsx:246-270 | A select-all click on a checked team of a selected project keeps the cascade invariant. |
| `NestedProofs.SetActiveTeamWellFormed` | s.tsx:216-224 | A row click on the current selected project keeps the cascade invariant. |
| `NestedProofs.NextWellFormed` | s.tsx:279-290 | Next and save keep the cascade invariant. |
| `NestedProofs.ApplyWellFormed` | s.tsx:135-294 | Every action the page offers keeps these true: projects listed once; every project key of the teams map selected, with its teams listed once; every member list under a selected project and a checked team. |
| `NestedProofs.BuildMappingComplete` | s.tsx:333-393 | When steps 0–2 are valid, the built mapping names an organization and a project, every project has a team, and every team has a non-empty member list. |
| `NestedProofs.NextKeepsGate` | s.tsx:279-290 | Next never lands on a step with an invalid predecessor, and a save adds only complete mappings. |
| `NestedProofs.ApplyGated` | s.tsx:446-942 | Under the page's wiring of controls to steps, every action keeps all steps before the active one valid and the saved list complete. |
| `NestedProofs.ApplyInvariant` | s.tsx:135-418 | Every enabled action keeps the cascade invariant, the step gate and saved-list completeness. |
| `NestedProofs.RunInvariant` | s.tsx:135-418 | Any run of enabled actions keeps the invariant. |
| `NestedProofs.SessionInvariant` | s.tsx:371-411 | From mount with a store of complete mappings, after any run of enabled actions: no child selection dangles, all steps before the active one are valid, and every saved mapping is complete. |
| `NestedProofs.ProjectToggleParity` | s.tsx:135-159 | Project toggles act on the list as `ToggleEach`. From an empty selection, a project is selected iff toggled an odd number of times, and none is listed twice. |
| `NestedProofs.ProjectReselectStartsEmpty` | s.tsx:135-159 | Removing and re-adding a project puts it last with no teams and no member lists; its select-all latches do come back unchanged, because the project toggle never touches them. |
| `NestedProofs.ToggleAllTwice` | s.tsx:246-270 | Two select-all clicks restore the latch. The list ends as the roster if the latch was on, else empty. |
| `NestedProofs.LatchSurvivesManualEdits` | s.tsx:135-243 | Member toggles, team toggles and project toggles never change any latch. |
| `NestedProofs.LatchDesync` | s.tsx:227-270 | Select all, then untick the only member: the latch is on while the list is empty. |
| `NestedProofs.NextThenBack` | s.tsx:279-294 | From a valid non-last step, Next then Back returns the same state. |
| `NestedProofs.BackThenNext` | s.tsx:279-294 | Back then Next returns the same state when the earlier step is valid and not the last. |
| `NestedProofs.ResetBlocksNext` | s.tsx:333-336 | After a reset, step 0 is invalid (no organization), so Next leaves the state unchanged. |
| `NestedProofs.WithoutTimestampAppend` | s.tsx:414 | Deleting by timestamp distributes over concatenation, so survivors keep their order. |
| `NestedProofs.SaveThenDelete` | s.tsx:371-418 | Saving and then deleting the fresh timestamp restores the saved list, when no earlier mapping shares the timestamp. |
| `NestedProofs.AcmeSelection` | s.tsx:135-243 | Organization Acme, Next, project PROJ1, Next, team Platform, member `Alice (NYC)` reach step 2 with exactly that selection. |
| `NestedProofs.AcmeSave` | s.tsx:371-411 | From step 2 with that selection, Next reaches the review step and Next again saves exactly the mapping `Acme → PROJ1 → [Platform] → {Platform: [Alice (NYC)]}` and resets the form. |
| `NestedProofs.AcmeScenario` | s.tsx:104-411 | Continuing with Next twice saves exactly one mapping `Acme → PROJ1 → [Platform] → {Platform: [Alice (NYC)]}` and leaves the form empty; the Platform roster formats as `Alice (NYC)`, `Bob`. |
| `NestedProofs.RunAppend` | s.tsx:135-418 | Running two action sequences one after the other is running their concatenation. |
| `FlatWizard.ClearSelection` | random.tsx:200-204 | Clears the current project, teams and members, and keeps the step, organization, mappings and saved list. |
| `FlatWizard.Reset` | random.tsx:193-198 | Returns to step 0 with no organization, no current selection and no mappings, and keeps the saved list. |
| `FlatWizard.OrgChange` | random.tsx:206-210 | Sets the organization (`''` when the picker is cleared) and clears the current project, teams, members and all committed mappings. |
| `FlatWizard.ProjectChange` | random.tsx:212-216 | Sets the project (`''` when cleared) and clears only the teams and members. Organization and mappings stay. |
| `FlatWizard.TeamChange` | random.tsx:218-224 | An absent team is appended at the end; a present one is filtered out with the rest in order. No duplicate is introduced, and no other field changes, member options included. |
| `FlatWizard.CheckboxChange` | random.tsx:226-232 | An absent member is appended at the end; a present one is filtered out with the rest in order. No duplicate is introduced, and no other field changes. |
| `FlatWizard.AllRosters` | random.tsx:171-179 | A string occurs in the concatenated rosters iff it is in the formatted roster of some selected team, and the first selected team's roster comes first. |
| `FlatWizard.TeamMembers` | random.tsx:168-183 | `getTeamMembers` has no duplicates and contains exactly the union of the selected teams' formatted rosters. |
| `FlatWizard.FindIndex` | random.tsx:257 | `findIndex` gives -1 iff no mapping has the project; otherwise the first index of one that has it. |
| `FlatWizard.Upsert` | random.tsx:259-278 | An existing project is replaced at its first index with the rest unchanged; otherwise the mapping is appended. Unique project keys stay unique. |
| `FlatWizard.AddProjectMapping` | random.tsx:248-286 | Without a project and a team, nothing changes. Otherwise the current selection is upserted and then cleared. Unique project keys stay unique. |
| `FlatWizard.WithoutProject` | random.tsx:289 | Keeps exactly the mappings of other projects, and keeps unique keys unique. |
| `FlatWizard.UniqueFilter` | random.tsx:289 | Filtering a list with unique project keys keeps them unique. |
| `FlatWizard.RemoveProjectMapping` | random.tsx:288-290 | Removes every mapping for the project, keeps the rest, and changes nothing else. |
| `FlatWizard.EditProjectMapping` | random.tsx:292-300 | An absent project is a no-op. Otherwise the first mapping for it becomes the current selection and every mapping for it leaves the list. |
| `FlatWizard.FinalMappings` | random.tsx:310-318 | The committed list comes first, followed by the current selection exactly when it is complete. A save that is not refused has at least one mapping. |
| `FlatWizard.Save` | random.tsx:302-338 | A refused save changes nothing. Otherwise exactly one configuration (id, organization, final mappings, timestamp) is appended after the unchanged earlier ones, and the form resets. |
| `FlatWizard.WithoutId` | random.tsx:341 | Keeps exactly the configurations with another id, and returns the list unchanged when none matches; their order is stated by `FlatProofs.WithoutIdAppend`. |
| `FlatWizard.DeleteConfig` | random.tsx:340-348 | Removes exactly the configurations with the id and changes nothing else. |
| `FlatWizard.IsStepValid` | random.tsx:350-359 | True at step 0 iff an organization is selected, and true at every other step. |
| `FlatProofs.SaveInvariant` | random.tsx:302-338 | A save on the last step keeps the invariant: the new configuration names the organization and holds at least one well-formed mapping. |
| `FlatProofs.ApplyInvariant` | random.tsx:185-348 | Every enabled action keeps the invariant. It covers: step in range; an organization from step 1 on; duplicate-free current teams and members; unique committed project keys; well-formed committed mappings; well-formed saved configurations. |
| `FlatProofs.RunInvariant` | random.tsx:185-348 | Any run of enabled actions keeps the invariant. |
| `FlatProofs.SessionInvariant` | random.tsx:248-338 | From mount with well-formed stored configurations, committed project keys stay unique and every saved configuration is well formed. |
| `FlatProofs.SaveCanDuplicateProject` | random.tsx:310-318 | Commit P, pick P again with a team, and save: the appended configuration lists project P twice. |
| `FlatProofs.AddThenLookup` | random.tsx:256-278 | After a successful add, `findIndex` for the project finds the mapping just added. |
| `FlatProofs.WithoutProjectAt` | random.tsx:289 | With unique keys, removing the project at i yields the list without position i. |
| `FlatProofs.WithoutProjectAppend` | random.tsx:289 | Removal by project distributes over concatenation, so the rest keep their order. |
| `FlatProofs.EditThenAdd` | random.tsx:248-300 | Editing a committed mapping and adding it back unchanged moves it to the end and keeps the others in order. |
| `FlatProofs.WithoutIdAppend` | random.tsx:340-348 | Deleting by id distributes over concatenation, so the surviving configurations keep their relative order. |
| `FlatProofs.SaveThenDelete` | random.tsx:302-348 | Saving and then deleting the fresh id restores the saved list, when no earlier configuration has that id. |
| `FlatProofs.TeamMembersOrder` | random.tsx:168-183 | The member union lists members in the order in which each first appears across the selected rosters. |
| `FlatProofs.AllRostersAppend` | random.tsx:171-179 | The rosters of two team lists in turn are the rosters of their concatenation: each team's roster is appended after the previous ones. |
| `FlatProofs.AllRostersSingle` | random.tsx:172-178 | One selected team contributes exactly its formatted roster, or nothing when it is unknown. |
| `FlatWizard.Next` | random.tsx:185-187 | Advances one step, unguarded, and changes nothing else. |
| `FlatWizard.Back` | random.tsx:189-191 | Goes back one step, unguarded, and changes nothing else. |
| `FlatProofs.NextBackInverse` | random.tsx:185-191 | Next and Back undo each other. |

## Left out

- Rendering is not modelled: the Stepper, Tabs, Dialog, Snackbar and Chip
  components, and the snackbar message, severity and open state (including
  `showValidationErrors` and `showSnackbar`). These are presentation only.
  The wiring of controls to steps appears only in the `Enabled` predicates.
- `localStorage`, `JSON.stringify` / `JSON.parse` and the load effects are
  foreign I/O. The saved list is part of the state and is handed to
  `Initial`; a failed parse is not modelled.
- `Date.now()` is a clock, so it is a parameter. The flat id (`Date.now().toString()`)
  is a separate string parameter, because the code reads the clock twice;
  the decimal rendering is not modelled.
- The `useEffect` rules that clear `activeTeam` (s.tsx:89-94) and reset
  `currentProjectIndex` (s.tsx:96-100) after a change are left out;
  `SelectProjectTab` models only the tab click. The `activeTeam` effect is
  not only display: it is what keeps the member checkboxes and the
  select-all control on a team checked for the current project. Without it
  the model can reach step 2 with an active team that is not checked for the
  current project (check T on project A, go back, remove A, come forward to
  B). `Enabled` requires the team of a member or select-all event to be
  checked, so it takes the effect's guarantee as given; the session
  invariant's "no member list dangles" rests on that guarantee.
- The search boxes (`toLowerCase` / `includes` filters) are left out. They
  are display-only and depend on Unicode case mapping.
- `handleAddNewOrg` (both variants) is left out. It depends on `String.trim`
  and its Unicode whitespace set. Its effect on the selection is
  `SelectOrganization` with the trimmed name (nested) or an organization
  change with that name but no cascade (flat). The in-memory organization
  list it extends is not modelled.
- Key order of the saved `projects` object, and of the `members` object
  inside each saved project, is not modelled. In JavaScript it is insertion
  order (`selectedProjects`, then each project's team list), except that
  integer-like keys come first in ascending order. The model uses unordered
  maps keyed by exactly those projects and teams. Nothing in the code reads
  either order.
- React StrictMode's double invocation of updaters and special object keys
  such as `__proto__` are not modelled.
- The optional `id` of a flat configuration is always present in the model,
  as it is in every configuration the code creates.
- `src/constants/index.ts`, `navbar.tsx` and `src/App.tsx` are not part of
  this model. They hold static portfolio data, floating-point layout,
  navigation and routing, with no wizard logic.

=== FILE: catalog.dfy ===
/** The static reference data the wizard reads: teams and their rosters.
    The catalog never changes while the wizard runs, so it is passed to the
    operations that need it as an immutable value. */
module Catalog {
  import opened Optional

  /** A roster entry; `loc` is the optional location field. */
  datatype Member = Member(name: string, loc: Option<string>)

  /** A team record of the catalog, identified by its team name. */
  datatype Team = Team(name: string, members: seq<Member>)

  /** True when the member's location would be printed: JavaScript treats
      both a missing location and the empty string as false. */
  predicate HasLocation(m: Member) {
    m.loc.Some? && m.loc.value != ""
  }

  /** The display string of a roster entry: the name, followed by the
      location in parentheses when there is one. */
  function FormatMember(m: Member): (r: string)
    ensures |r| >= |m.name| && r[..|m.name|] == m.name
    ensures HasLocation(m) <==> |r| > |m.name|
    ensures HasLocation(m) ==> r[|m.name|..] == " (" + m.loc.value + ")"
  {
    if HasLocation(m) then m.name + " (" + m.loc.value + ")" else m.name
  }

  /** Position `i` holds the first team called `name`. */
  predicate FirstNamed(teams: seq<Team>, name: string, i: int) {
    && 0 <= i < |teams|
    && teams[i].name == name
    && forall j :: 0 <= j < i ==> teams[j].name != name
  }

  /** The first team whose name is `name`, as `Array.prototype.find` returns it. */
  function FindTeam(teams: seq<Team>, name: string): (r: Option<Team>)
    ensures r.None? <==> forall i :: 0 <= i < |teams| ==> teams[i].name != name
    ensures r.Some? ==> exists i :: FirstNamed(teams, name, i) && teams[i] == r.value
  {
    if |teams| == 0 then None
    else if teams[0].name == name then (assert FirstNamed(teams, name, 0); Some(teams[0]))
    else
      var r := FindTeam(teams[1..], name);
      assert r.Some? ==> exists i :: FirstNamed(teams, name, i) && teams[i] == r.value by {
        if r.Some? {
          var i :| FirstNamed(teams[1..], name, i) && teams[1..][i] == r.value;
          assert FirstNamed(teams, name, i + 1);
        }
      }
      r
  }

  /** The display strings of a roster, entry by entry. */
  function FormatRoster(ms: seq<Member>): (r: seq<string>)
    ensures |r| == |ms|
    ensures forall i :: 0 <= i < |ms| ==> r[i] == FormatMember(ms[i])
  {
    if |ms| == 0 then [] else [FormatMember(ms[0])] + FormatRoster(ms[1..])
  }

  /** The formatted roster of the team called `name`; empty when the
      catalog has no such team. */
  function RosterOf(teams: seq<Team>, name: string): (r: seq<string>)
    ensures (forall i :: 0 <= i < |teams| ==> teams[i].name != name) ==> r == []
    ensures forall t :: FindTeam(teams, name) == Some(t) ==>
      |r| == |t.members| && forall i :: 0 <= i < |r| ==> r[i] == FormatMember(t.members[i])
  {
    match FindTeam(teams, name)
    case None => []
    case Some(t) => FormatRoster(t.members)
  }
}

=== FILE: flat_proofs.dfy ===
/** Properties of the `random.tsx` wizard that relate several handler calls. */
module FlatProofs {
  import opened Optional
  import opened Seqs
  import Catalog
  import opened FlatWizard

  /** The user actions the rendered wizard wires to its handlers. */
  datatype Event =
    | OrgChanged(org: Option<string>)
    | ProjectChanged(project: Option<string>)
    | TeamToggled(team: string)
    | OptionToggled(option: string)
    | MappingAdded
    | MappingEdited(p: string)
    | MappingRemoved(p: string)
    | Saved(id: string, now: int)
    | ConfigDeleted(id: string)
    | NextPressed
    | BackPressed

  function Apply(st: Wizard, e: Event): Wizard {
    match e
    case OrgChanged(v) => OrgChange(st, v)
    case ProjectChanged(v) => ProjectChange(st, v)
    case TeamToggled(t) => TeamChange(st, t)
    case OptionToggled(o) => CheckboxChange(st, o)
    case MappingAdded => AddProjectMapping(st)
    case MappingEdited(p) => EditProjectMapping(st, p)
    case MappingRemoved(p) => RemoveProjectMapping(st, p)
    case Saved(id, now) => Save(st, id, now)
    case ConfigDeleted(id) => DeleteConfig(st, id)
    case NextPressed => Next(st)
    case BackPressed => Back(st)
  }

  /** When the page offers an action: the organization picker on step 0,
      the project, team, member and mapping controls on step 1, Save in place
      of Next on the last step; Next is disabled while the step is invalid
      and Back on step 0; the saved list is always shown. */
  predicate Enabled(st: Wizard, e: Event) {
    match e
    case OrgChanged(_) => st.activeStep == 0
    case ProjectChanged(_) => st.activeStep == 1
    case TeamToggled(_) => st.activeStep == 1
    case OptionToggled(_) => st.activeStep == 1
    case MappingAdded => st.activeStep == 1
    case MappingEdited(_) => st.activeStep == 1
    case MappingRemoved(_) => st.activeStep == 1
    case Saved(_, _) => st.activeStep == LastStep
    case ConfigDeleted(_) => true
    case NextPressed => st.activeStep != LastStep && IsStepValid(st)
    case BackPressed => st.activeStep != 0
  }

  /** A committed mapping names a project and at least one team, and lists
      no team or member twice. */
  predicate EntryOk(m: ProjectMapping) {
    m.project != "" && |m.teams| > 0 && NoDup(m.teams) && NoDup(m.members)
  }

  /** A saved configuration names an organization and holds at least one
      well-formed mapping (possibly two for the same project). */
  predicate ConfigOk(c: Configuration) {
    c.organization != "" && |c.mappings| > 0 && forall m :: m in c.mappings ==> EntryOk(m)
  }

  predicate Invariant(st: Wizard) {
    && 0 <= st.activeStep <= LastStep
    && (st.activeStep >= 1 ==> st.selectedOrg != "")
    && NoDup(st.selectedTeams) && NoDup(st.selectedOptions)
    && UniqueProjects(st.projectMappings)
    && (forall m :: m in st.projectMappings ==> EntryOk(m))
    && (forall c :: c in st.savedConfigs ==> ConfigOk(c))
  }

  lemma SaveInvariant(st: Wizard, id: string, now: int)
    requires Invariant(st) && st.activeStep == LastStep
    ensures Invariant(Save(st, id, now))
  {
    if !SaveRejected(st) {
      var r := Save(st, id, now);
      var c := Configuration(id, st.selectedOrg, FinalMappings(st), now);
      assert forall m :: m in FinalMappings(st) ==> m in st.projectMappings || m == CurrentMapping(st);
      assert ConfigOk(c);
      assert forall x :: x in r.savedConfigs ==> x in st.savedConfigs || x == c;
    }
  }

  /** Every enabled action keeps the invariant. */
  lemma ApplyInvariant(st: Wizard, e: Event)
    requires Invariant(st) && Enabled(st, e)
    ensures Invariant(Apply(st, e))
  {
    match e
    case Saved(id, now) => SaveInvariant(st, id, now);
    case MappingEdited(p) =>
      var i := FindIndex(st.projectMappings, p);
      if i >= 0 {
        assert st.projectMappings[i] in st.projectMappings;
      }
    case MappingAdded =>
      if CurrentComplete(st) {
        assert EntryOk(CurrentMapping(st));
      }
    case _ =>
  }

  predicate EnabledRun(st: Wizard, es: seq<Event>)
    decreases |es|
  {
    |es| == 0 || (Enabled(st, es[0]) && EnabledRun(Apply(st, es[0]), es[1..]))
  }

  function Run(st: Wizard, es: seq<Event>): Wizard
    decreases |es|
  {
    if |es| == 0 then st else Run(Apply(st, es[0]), es[1..])
  }

  lemma {:induction false} RunInvariant(st: Wizard, es: seq<Event>)
    requires Invariant(st) && EnabledRun(st, es)
    ensures Invariant(Run(st, es))
    decreases |es|
  {
    if |es| > 0 {
      ApplyInvariant(st, es[0]);
      RunInvariant(Apply(st, es[0]), es[1..]);
    }
  }

  /** Whatever the user does through the page, starting from a store of
      well-formed configurations, the committed mappings never list a
      project twice and every saved configuration is well formed. */
  lemma SessionInvariant(loaded: seq<Configuration>, es: seq<Event>)
    requires forall c :: c in loaded ==> ConfigOk(c)
    requires EnabledRun(Initial(loaded), es)
    ensures UniqueProjects(Run(Initial(loaded), es).projectMappings)
    ensures forall c :: c in Run(Initial(loaded), es).savedConfigs ==> ConfigOk(c)
  {
    RunInvariant(Initial(loaded), es);
  }

  /** Saving can record the same project twice: commit project "P", pick
      "P" again with a team, and save. */
  lemma SaveCanDuplicateProject(st: Wizard, id: string, now: int)
    requires Invariant(st) && st.activeStep == 1
    ensures var r := ProjectChange(AddProjectMapping(TeamChange(ProjectChange(st, Some("P")), "T")), Some("P"));
      var saved := Save(TeamChange(r, "T").(activeStep := LastStep), id, now).savedConfigs;
      && |saved| == |st.savedConfigs| + 1
      && !UniqueProjects(saved[|st.savedConfigs|].mappings)
  {
    var a := TeamChange(ProjectChange(st, Some("P")), "T");
    assert a.selectedTeams == ["T"];
    var b := AddProjectMapping(a);
    var k := FindIndex(b.projectMappings, "P");
    assert k >= 0 by {
      assert CurrentMapping(a) in b.projectMappings;
    }
    var c := TeamChange(ProjectChange(b, Some("P")), "T").(activeStep := LastStep);
    var fin := FinalMappings(c);
    assert fin[k] == b.projectMappings[k] && fin[|b.projectMappings|] == CurrentMapping(c);
  }

  /** After a successful add, looking the project up finds the mapping just added. */
  lemma AddThenLookup(st: Wizard)
    requires CurrentComplete(st)
    ensures var ms := AddProjectMapping(st).projectMappings;
      var i := FindIndex(ms, st.selectedProject);
      i >= 0 && ms[i] == CurrentMapping(st)
  {
    var ms := st.projectMappings;
    var m := CurrentMapping(st);
    var k := FindIndex(ms, st.selectedProject);
    if k == -1 {
      var r := ms + [m];
      assert r[|ms|] == m;
      assert forall j :: 0 <= j < |ms| ==> r[j] == ms[j] && r[j].project != m.project;
      assert FindIndex(r, m.project) == |ms|;
    } else {
      var r := Upsert(ms, m);
      assert forall j :: 0 <= j < k ==> r[j] == ms[j];
    }
  }

  /** With unique projects, removing a project closes the gap it leaves. */
  lemma WithoutProjectAt(ms: seq<ProjectMapping>, i: int)
    requires UniqueProjects(ms) && 0 <= i < |ms|
    ensures WithoutProject(ms, ms[i].project) == ms[..i] + ms[i+1..]
  {
    var p := ms[i].project;
    var pre, post := ms[..i], ms[i+1..];
    assert ms == pre + ([ms[i]] + post);
    WithoutProjectAppend(pre, [ms[i]] + post, p);
    WithoutProjectAppend([ms[i]], post, p);
    assert forall k :: 0 <= k < |pre| ==> pre[k].project != p by {
      forall k | 0 <= k < |pre| ensures pre[k].project != p {
        assert pre[k] == ms[k];
      }
    }
    assert forall k :: 0 <= k < |post| ==> post[k].project != p by {
      forall k | 0 <= k < |post| ensures post[k].project != p {
        assert post[k] == ms[i + 1 + k];
      }
    }
    assert WithoutProject([ms[i]], p) == [];
  }

  /** Removing mappings keeps the survivors in order: it distributes over
      concatenation. */
  lemma WithoutProjectAppend(a: seq<ProjectMapping>, b: seq<ProjectMapping>, p: string)
    ensures WithoutProject(a + b, p) == WithoutProject(a, p) + WithoutProject(b, p)
  {
    FilterAppend(a, b, (m: ProjectMapping) => m.project != p);
  }

  /** Editing a committed mapping and adding it back unchanged moves it to
      the end of the list and leaves the others in order. */
  lemma EditThenAdd(st: Wizard, p: string)
    requires UniqueProjects(st.projectMappings)
    requires FindIndex(st.projectMappings, p) >= 0
    requires EntryOk(st.projectMappings[FindIndex(st.projectMappings, p)])
    ensures var i := FindIndex(st.projectMappings, p);
      AddProjectMapping(EditProjectMapping(st, p)).projectMappings
        == st.projectMappings[..i] + st.projectMappings[i+1..] + [st.projectMappings[i]]
  {
    var ms := st.projectMappings;
    var i := FindIndex(ms, p);
    WithoutProjectAt(ms, i);
    var e := EditProjectMapping(st, p);
    assert CurrentComplete(e);
    assert FindIndex(e.projectMappings, p) == -1;
  }

  /** Saving and then deleting by the fresh id gives back the saved list as
      it was, when no earlier configuration carries that id. */
  lemma SaveThenDelete(st: Wizard, id: string, now: int)
    requires !SaveRejected(st)
    requires forall i :: 0 <= i < |st.savedConfigs| ==> st.savedConfigs[i].id != id
    ensures DeleteConfig(Save(st, id, now), id).savedConfigs == st.savedConfigs
  {
    var config := Configuration(id, st.selectedOrg, FinalMappings(st), now);
    assert Save(st, id, now).savedConfigs == st.savedConfigs + [config];
    WithoutIdAppend(st.savedConfigs, [config], id);
    assert WithoutId([config], id) == [];
  }

  /** Deleting by id keeps the surviving configurations in their order: it
      distributes over concatenation. */
  lemma WithoutIdAppend(a: seq<Configuration>, b: seq<Configuration>, id: string)
    ensures WithoutId(a + b, id) == WithoutId(a, id) + WithoutId(b, id)
  {
    FilterAppend(a, b, (c: Configuration) => c.id != id);
  }

  /** The member union lists each member in the order of its first
      appearance across the selected teams' rosters. */
  lemma TeamMembersOrder(cat: seq<Catalog.Team>, ts: seq<string>)
    ensures var all := AllRosters(cat, ts);
      forall i, j :: 0 <= i < j < |TeamMembers(cat, ts)| ==>
        IndexOf(all, TeamMembers(cat, ts)[i]) < IndexOf(all, TeamMembers(cat, ts)[j])
  {
    DedupFirstOccurrenceOrder(AllRosters(cat, ts));
  }

  /** The rosters are laid out team after team in selection order: the
      rosters of a concatenation of team lists are the concatenation of
      their rosters. */
  lemma {:induction false} AllRostersAppend(cat: seq<Catalog.Team>, a: seq<string>, b: seq<string>)
    ensures AllRosters(cat, a + b) == AllRosters(cat, a) + AllRosters(cat, b)
    decreases |a|
  {
    if |a| == 0 {
      assert a + b == b;
    } else {
      assert (a + b)[0] == a[0] && (a + b)[1..] == a[1..] + b;
      AllRostersAppend(cat, a[1..], b);
    }
  }

  /** One selected team contributes exactly its formatted roster. */
  lemma AllRostersSingle(cat: seq<Catalog.Team>, t: string)
    ensures AllRosters(cat, [t]) == Catalog.RosterOf(cat, t)
  {
    assert [t][1..] == [];
  }

  /** Advancing and going back returns to the same state, and so does going
      back and advancing. */
  lemma NextBackInverse(st: Wizard)
    ensures Back(Next(st)) == st && Next(Back(st)) == st
  {
  }
}

=== FILE: flat_wizard.dfy ===
/** The three-step wizard of `random.tsx`: Organization, Project & Teams,
    Review. It edits one "current" project at a time (its teams and its
    members) and commits it to a list of project mappings; saving merges the
    current selection into that list and appends one configuration. */
module FlatWizard {
  import opened Optional
  import opened Seqs
  import Catalog

  const StepCount: int := 3
  const LastStep: int := StepCount - 1

  /** One project of a configuration with its teams and its members. */
  datatype ProjectMapping = ProjectMapping(project: string, teams: seq<string>, members: seq<string>)

  /** A saved configuration; `id` is the clock reading rendered as a string. */
  datatype Configuration = Configuration(
    id: string, organization: string, mappings: seq<ProjectMapping>, timestamp: int)

  /** The component state that the handlers read and write. */
  datatype Wizard = Wizard(
    activeStep: int,
    selectedOrg: string,
    selectedProject: string,
    selectedTeams: seq<string>,
    selectedOptions: seq<string>,
    projectMappings: seq<ProjectMapping>,
    savedConfigs: seq<Configuration>)

  /** No project, team or member is being edited. */
  predicate NoCurrentSelection(st: Wizard) {
    st.selectedProject == "" && st.selectedTeams == [] && st.selectedOptions == []
  }

  /** The form as mounted, or as `handleReset` leaves it. */
  predicate Pristine(st: Wizard) {
    && st.activeStep == 0
    && st.selectedOrg == ""
    && NoCurrentSelection(st)
    && st.projectMappings == []
  }

  function Initial(saved: seq<Configuration>): Wizard {
    Wizard(0, "", "", [], [], [], saved)
  }

  /** `clearProjectTeamSelection` */
  function ClearSelection(st: Wizard): (r: Wizard)
    ensures NoCurrentSelection(r)
    ensures r.activeStep == st.activeStep && r.selectedOrg == st.selectedOrg
    ensures r.projectMappings == st.projectMappings && r.savedConfigs == st.savedConfigs
  {
    st.(selectedProject := "", selectedTeams := [], selectedOptions := [])
  }

  /** `handleReset` */
  function Reset(st: Wizard): (r: Wizard)
    ensures Pristine(r) && r.savedConfigs == st.savedConfigs
  {
    ClearSelection(st).(activeStep := 0, selectedOrg := "", projectMappings := [])
  }

  /** `handleOrgChange`: a new organization discards the current selection
      and every committed project mapping; a cleared picker gives `""`. */
  function OrgChange(st: Wizard, v: Option<string>): (r: Wizard)
    ensures r.selectedOrg == v.GetOr("")
    ensures NoCurrentSelection(r) && r.projectMappings == []
    ensures r.activeStep == st.activeStep && r.savedConfigs == st.savedConfigs
  {
    ClearSelection(st).(selectedOrg := v.GetOr(""), projectMappings := [])
  }

  /** `handleProjectChange`: a new project discards the teams and members
      being edited and nothing else. */
  function ProjectChange(st: Wizard, v: Option<string>): (r: Wizard)
    ensures r.selectedProject == v.GetOr("")
    ensures r.selectedTeams == [] && r.selectedOptions == []
    ensures r.selectedOrg == st.selectedOrg && r.projectMappings == st.projectMappings
    ensures r.activeStep == st.activeStep && r.savedConfigs == st.savedConfigs
  {
    st.(selectedProject := v.GetOr(""), selectedTeams := [], selectedOptions := [])
  }

  /** `handleTeamChange`; the members chosen from that team's roster stay chosen. */
  function TeamChange(st: Wizard, t: string): (r: Wizard)
    ensures r.selectedTeams == Toggle(st.selectedTeams, t)
    ensures t !in st.selectedTeams ==> r.selectedTeams == st.selectedTeams + [t]
    ensures t in st.selectedTeams ==> r.selectedTeams == Without(st.selectedTeams, t)
    ensures t in r.selectedTeams <==> t !in st.selectedTeams
    ensures forall u :: u != t ==> (u in r.selectedTeams <==> u in st.selectedTeams)
    ensures NoDup(st.selectedTeams) ==> NoDup(r.selectedTeams)
    ensures r.(selectedTeams := st.selectedTeams) == st
  {
    st.(selectedTeams := Toggle(st.selectedTeams, t))
  }

  /** `handleCheckboxChange` */
  function CheckboxChange(st: Wizard, option: string): (r: Wizard)
    ensures r.selectedOptions == Toggle(st.selectedOptions, option)
    ensures option !in st.selectedOptions ==> r.selectedOptions == st.selectedOptions + [option]
    ensures option in st.selectedOptions ==> r.selectedOptions == Without(st.selectedOptions, option)
    ensures option in r.selectedOptions <==> option !in st.selectedOptions
    ensures forall u :: u != option ==> (u in r.selectedOptions <==> u in st.selectedOptions)
    ensures NoDup(st.selectedOptions) ==> NoDup(r.selectedOptions)
    ensures r.(selectedOptions := st.selectedOptions) == st
  {
    st.(selectedOptions := Toggle(st.selectedOptions, option))
  }

  /** The rosters of the teams `ts`, one after another, unknown teams contributing nothing. */
  function AllRosters(cat: seq<Catalog.Team>, ts: seq<string>): (r: seq<string>)
    ensures forall x :: x in r <==> exists i :: 0 <= i < |ts| && x in Catalog.RosterOf(cat, ts[i])
    ensures |ts| > 0 ==>
      |Catalog.RosterOf(cat, ts[0])| <= |r| && r[..|Catalog.RosterOf(cat, ts[0])|] == Catalog.RosterOf(cat, ts[0])
  {
    if |ts| == 0 then []
    else
      var rest := AllRosters(cat, ts[1..]);
      assert forall x :: x in rest <==> exists i :: 1 <= i < |ts| && x in Catalog.RosterOf(cat, ts[i]) by {
        forall x | x in rest ensures exists i :: 1 <= i < |ts| && x in Catalog.RosterOf(cat, ts[i]) {
          var i :| 0 <= i < |ts[1..]| && x in Catalog.RosterOf(cat, ts[1..][i]);
          assert ts[1..][i] == ts[i + 1];
        }
        forall x | (exists i :: 1 <= i < |ts| && x in Catalog.RosterOf(cat, ts[i])) ensures x in rest {
          var i :| 1 <= i < |ts| && x in Catalog.RosterOf(cat, ts[i]);
          assert ts[1..][i - 1] == ts[i];
        }
      }
      Catalog.RosterOf(cat, ts[0]) + rest
  }

  /** `getTeamMembers`: the union of the formatted rosters of the selected
      teams, each member once, in order of first appearance. */
  function TeamMembers(cat: seq<Catalog.Team>, selectedTeams: seq<string>): (r: seq<string>)
    ensures NoDup(r)
    ensures forall x :: x in r <==>
      exists i :: 0 <= i < |selectedTeams| && x in Catalog.RosterOf(cat, selectedTeams[i])
  {
    Dedup(AllRosters(cat, selectedTeams))
  }

  /** The current project has been chosen and has at least one team. */
  predicate CurrentComplete(st: Wizard) {
    st.selectedProject != "" && |st.selectedTeams| > 0
  }

  /** The mapping the current selection stands for. */
  function CurrentMapping(st: Wizard): ProjectMapping {
    ProjectMapping(st.selectedProject, st.selectedTeams, st.selectedOptions)
  }

  /** `findIndex(m => m.project === p)`: the first position holding project
      `p`, or -1 when there is none. */
  function FindIndex(ms: seq<ProjectMapping>, p: string): (r: int)
    ensures -1 <= r < |ms|
    ensures r == -1 <==> forall i :: 0 <= i < |ms| ==> ms[i].project != p
    ensures r >= 0 ==> ms[r].project == p && forall j :: 0 <= j < r ==> ms[j].project != p
  {
    if |ms| == 0 then -1
    else if ms[0].project == p then 0
    else
      var k := FindIndex(ms[1..], p);
      assert forall j :: 1 <= j < |ms| ==> ms[1..][j - 1] == ms[j];
      if k == -1 then -1 else k + 1
  }

  /** Each project appears in at most one mapping. */
  predicate UniqueProjects(ms: seq<ProjectMapping>) {
    forall i, j :: 0 <= i < j < |ms| ==> ms[i].project != ms[j].project
  }

  /** Replaces the first mapping for `m.project` in place, or appends `m`. */
  function Upsert(ms: seq<ProjectMapping>, m: ProjectMapping): (r: seq<ProjectMapping>)
    ensures m in r
    ensures forall x :: x in r ==> x in ms || x == m
    ensures FindIndex(ms, m.project) >= 0 ==>
      |r| == |ms| && r[FindIndex(ms, m.project)] == m
      && forall j :: 0 <= j < |ms| && j != FindIndex(ms, m.project) ==> r[j] == ms[j]
    ensures FindIndex(ms, m.project) == -1 ==> r == ms + [m]
    ensures UniqueProjects(ms) ==> UniqueProjects(r)
  {
    var i := FindIndex(ms, m.project);
    if i >= 0 then (assert ms[i := m][i] == m; ms[i := m]) else ms + [m]
  }

  /** `handleAddProjectMapping`: without a project and a team nothing
      happens; otherwise the current selection is upserted and cleared. */
  function AddProjectMapping(st: Wizard): (r: Wizard)
    ensures !CurrentComplete(st) ==> r == st
    ensures CurrentComplete(st) ==>
      r.projectMappings == Upsert(st.projectMappings, CurrentMapping(st)) && NoCurrentSelection(r)
    ensures UniqueProjects(st.projectMappings) ==> UniqueProjects(r.projectMappings)
    ensures r.activeStep == st.activeStep && r.selectedOrg == st.selectedOrg
    ensures r.savedConfigs == st.savedConfigs
  {
    if !CurrentComplete(st) then st
    else ClearSelection(st.(projectMappings := Upsert(st.projectMappings, CurrentMapping(st))))
  }

  /** The mappings for projects other than `p`, in order. */
  function WithoutProject(ms: seq<ProjectMapping>, p: string): (r: seq<ProjectMapping>)
    ensures forall m :: m in r <==> m in ms && m.project != p
    ensures (forall i :: 0 <= i < |ms| ==> ms[i].project != p) ==> r == ms
    ensures UniqueProjects(ms) ==> UniqueProjects(r)
  {
    var r := Filter(ms, (m: ProjectMapping) => m.project != p);
    assert UniqueProjects(ms) ==> UniqueProjects(r) by {
      if UniqueProjects(ms) {
        UniqueFilter(ms, (m: ProjectMapping) => m.project != p);
      }
    }
    r
  }

  lemma {:induction false} UniqueFilter(ms: seq<ProjectMapping>, keep: ProjectMapping -> bool)
    requires UniqueProjects(ms)
    ensures UniqueProjects(Filter(ms, keep))
  {
    if |ms| > 0 {
      UniqueFilter(ms[1..], keep);
      var rest := Filter(ms[1..], keep);
      forall m | m in rest ensures m.project != ms[0].project {
        var j :| 0 <= j < |ms[1..]| && ms[1..][j] == m;
        assert ms[j + 1] == m;
      }
    }
  }

  /** `handleRemoveProjectMapping` */
  function RemoveProjectMapping(st: Wizard, p: string): (r: Wizard)
    ensures forall m :: m in r.projectMappings <==> m in st.projectMappings && m.project != p
    ensures UniqueProjects(st.projectMappings) ==> UniqueProjects(r.projectMappings)
    ensures r.(projectMappings := st.projectMappings) == st
  {
    st.(projectMappings := WithoutProject(st.projectMappings, p))
  }

  /** `handleEditProjectMapping`: the first mapping for `p` becomes the
      current selection and every mapping for `p` leaves the list; with no
      mapping for `p` nothing happens. */
  function EditProjectMapping(st: Wizard, p: string): (r: Wizard)
    ensures FindIndex(st.projectMappings, p) == -1 ==> r == st
    ensures FindIndex(st.projectMappings, p) >= 0 ==>
      CurrentMapping(r) == st.projectMappings[FindIndex(st.projectMappings, p)]
      && r.projectMappings == WithoutProject(st.projectMappings, p)
    ensures UniqueProjects(st.projectMappings) ==> UniqueProjects(r.projectMappings)
    ensures r.activeStep == st.activeStep && r.selectedOrg == st.selectedOrg
    ensures r.savedConfigs == st.savedConfigs
  {
    var i := FindIndex(st.projectMappings, p);
    if i == -1 then st
    else
      var m := st.projectMappings[i];
      st.(selectedProject := m.project, selectedTeams := m.teams, selectedOptions := m.members,
          projectMappings := WithoutProject(st.projectMappings, p))
  }

  /** `handleSave` refuses when there is no mapping and no complete current selection. */
  predicate SaveRejected(st: Wizard) {
    |st.projectMappings| == 0 && !CurrentComplete(st)
  }

  /** The committed mappings, followed by the current selection when it is
      complete; nothing checks that its project is not already listed. */
  function FinalMappings(st: Wizard): (r: seq<ProjectMapping>)
    ensures |r| >= |st.projectMappings| && r[..|st.projectMappings|] == st.projectMappings
    ensures CurrentComplete(st) ==> |r| == |st.projectMappings| + 1 && r[|st.projectMappings|] == CurrentMapping(st)
    ensures !CurrentComplete(st) ==> r == st.projectMappings
    ensures !SaveRejected(st) ==> |r| > 0
  {
    if CurrentComplete(st) then st.projectMappings + [CurrentMapping(st)] else st.projectMappings
  }

  /** `handleSave`: appends exactly one configuration, read from the clock
      as `id` and `now`, and resets the form; refused saves change nothing. */
  function Save(st: Wizard, id: string, now: int): (r: Wizard)
    ensures SaveRejected(st) ==> r == st
    ensures !SaveRejected(st) ==>
      && |r.savedConfigs| == |st.savedConfigs| + 1
      && r.savedConfigs[..|st.savedConfigs|] == st.savedConfigs
      && r.savedConfigs[|st.savedConfigs|] == Configuration(id, st.selectedOrg, FinalMappings(st), now)
      && Pristine(r)
  {
    if SaveRejected(st) then st
    else
      var config := Configuration(id, st.selectedOrg, FinalMappings(st), now);
      Reset(st.(savedConfigs := st.savedConfigs + [config]))
  }

  /** The saved configurations whose id is not `id`, in order. */
  function WithoutId(cs: seq<Configuration>, id: string): (r: seq<Configuration>)
    ensures forall c :: c in r <==> c in cs && c.id != id
    ensures (forall i :: 0 <= i < |cs| ==> cs[i].id != id) ==> r == cs
  {
    Filter(cs, (c: Configuration) => c.id != id)
  }

  /** `handleDeleteConfig` */
  function DeleteConfig(st: Wizard, id: string): (r: Wizard)
    ensures forall c :: c in r.savedConfigs <==> c in st.savedConfigs && c.id != id
    ensures r.(savedConfigs := st.savedConfigs) == st
  {
    st.(savedConfigs := WithoutId(st.savedConfigs, id))
  }

  /** `isStepValid`: only the organization step can be invalid. */
  function IsStepValid(st: Wizard): (r: bool)
    ensures r <==> st.activeStep != 0 || st.selectedOrg != ""
  {
    match st.activeStep
    case 0 => st.selectedOrg != ""
    case 1 => true
    case _ => true
  }

  /** `handleNext` (the page disables it while the step is invalid). */
  function Next(st: Wizard): (r: Wizard)
    ensures r.activeStep == st.activeStep + 1
    ensures r.(activeStep := st.activeStep) == st
  {
    st.(activeStep := st.activeStep + 1)
  }

  /** `handleBack` (the page disables it on step 0). */
  function Back(st: Wizard): (r: Wizard)
    ensures r.activeStep == st.activeStep - 1
    ensures r.(activeStep := st.activeStep) == st
  {
    st.(activeStep := st.activeStep - 1)
  }
}

=== FILE: nested_proofs.dfy ===
/** Properties of the `s.tsx` wizard that relate several handler calls: the
    cascade invariant, the step gate, the select-all latch, and the
    save / delete round trip. */
module NestedProofs {
  import opened Optional
  import opened Seqs
  import Catalog
  import opened NestedWizard

  /** The user actions the rendered wizard wires to its handlers. */
  datatype Event =
    | OrgPicked(org: string)
    | MappingDeleted(ts: int)
    | ProjectToggled(p: string)
    | TeamChecked(t: string, p: string)
    | TeamRowClicked(t: string)
    | MemberToggled(m: string, t: string, p: string)
    | AllMembersToggled(t: string, p: string)
    | TabSelected(index: int)
    | NextPressed(now: int)
    | BackPressed

  /** The handler each action calls. */
  function Apply(cat: seq<Catalog.Team>, st: Wizard, e: Event): Wizard {
    match e
    case OrgPicked(org) => SelectOrganization(st, org)
    case MappingDeleted(ts) => DeleteMapping(st, ts)
    case ProjectToggled(p) => ToggleProject(st, p)
    case TeamChecked(t, p) => TeamCheckbox(st, t, p)
    case TeamRowClicked(t) => SetActiveTeam(st, t)
    case MemberToggled(m, t, p) => MemberToggle(st, m, t, p)
    case AllMembersToggled(t, p) => ToggleAllMembers(cat, st, t, p)
    case TabSelected(i) => SelectProjectTab(st, i)
    case NextPressed(now) => Next(st, now)
    case BackPressed => Back(st)
  }

  /** When the page offers an action: the organization picker and the saved
      list are on step 0, the project list on step 1, the team and member
      controls on step 2 for any selected project (a superset of the project
      of the current tab, which is the one the page passes) and, for member
      controls, a checked team of it, which the page's `activeTeam` effect
      guarantees and this predicate takes as given; Back is disabled on
      step 0. */
  predicate Enabled(st: Wizard, e: Event) {
    match e
    case OrgPicked(_) => st.activeStep == 0
    case MappingDeleted(_) => st.activeStep == 0
    case ProjectToggled(_) => st.activeStep == 1
    case TeamChecked(_, p) => st.activeStep == 2 && p in st.selectedProjects
    case TeamRowClicked(_) => st.activeStep == 2 && st.CurrentProject() in st.selectedProjects
    case MemberToggled(_, t, p) => st.activeStep == 2 && p in st.selectedProjects && t in st.Teams(p)
    case AllMembersToggled(t, p) => st.activeStep == 2 && p in st.selectedProjects && t in st.Teams(p)
    case TabSelected(_) => st.activeStep == 2
    case NextPressed(_) => true
    case BackPressed => st.activeStep != 0
  }

  /** No dangling children: projects are listed once, every project with
      teams is selected and lists each team once, and every member list
      belongs to a checked team of a selected project. */
  predicate WellFormed(st: Wizard) {
    && NoDup(st.selectedProjects)
    && (forall p :: p in st.projectTeams ==> p in st.selectedProjects && NoDup(st.projectTeams[p]))
    && (forall p :: p in st.teamMembers ==>
          p in st.selectedProjects && forall t :: t in st.teamMembers[p] ==> t in st.Teams(p))
  }

  /** The wizard is on a real step and every step before it is valid. */
  predicate Gated(st: Wizard) {
    && 0 <= st.activeStep <= LastStep
    && forall k :: 0 <= k < st.activeStep ==> StepValid(st, k)
  }

  /** A saved mapping names an organization and at least one project, every
      project has a team, and every team has a non-empty member list. */
  predicate MappingComplete(m: Mapping) {
    && m.organization != ""
    && m.projects != map[]
    && forall p :: p in m.projects ==>
         |m.projects[p].teams| > 0
         && forall t :: t in m.projects[p].teams ==>
              t in m.projects[p].members && |m.projects[p].members[t]| > 0
  }

  predicate AllComplete(ms: seq<Mapping>) {
    forall m :: m in ms ==> MappingComplete(m)
  }

  predicate Invariant(st: Wizard) {
    WellFormed(st) && Gated(st) && AllComplete(st.savedMappings)
  }

  /** Validity of a step does not depend on which step is active. */
  lemma StepValidIgnoresActiveStep(st: Wizard, step: int, k: int)
    ensures StepValid(st.(activeStep := step), k) == StepValid(st, k)
  {
    var st' := st.(activeStep := step);
    assert forall p :: st'.Teams(p) == st.Teams(p);
    assert forall p, t :: st'.Members(p, t) == st.Members(p, t);
  }

  /** Team and member edits keep the first two steps valid. */
  lemma SelectionEditKeepsEarlySteps(st: Wizard, st': Wizard)
    requires st'.selectedOrg == st.selectedOrg && st'.selectedProjects == st.selectedProjects
    ensures StepValid(st', 0) == StepValid(st, 0) && StepValid(st', 1) == StepValid(st, 1)
  {
  }

  /** `handleTeamCheckbox` on a selected project keeps the selection well formed. */
  lemma TeamCheckboxWellFormed(st: Wizard, t: string, p: string)
    requires WellFormed(st) && p in st.selectedProjects
    ensures WellFormed(TeamCheckbox(st, t, p))
  {
    var r := TeamCheckbox(st, t, p);
    assert NoDup(st.Teams(p));
    forall q | q in r.teamMembers
      ensures q in r.selectedProjects && forall u :: u in r.teamMembers[q] ==> u in r.Teams(q)
    {
      if q == p {
        forall u | u in r.teamMembers[p] ensures u in r.Teams(p) {
          if u != t {
            assert AgreeAt(r.teamMembers[p], st.MemberLists(p), u);
            assert u in st.Teams(p);
          }
        }
      } else {
        assert AgreeAt(r.teamMembers, st.teamMembers, q);
        assert AgreeAt(r.projectTeams, st.projectTeams, q);
        assert r.Teams(q) == st.Teams(q);
      }
    }
  }

  /** Well-formedness reads only the three selection fields. */
  lemma SameSelectionWellFormed(st: Wizard, r: Wizard)
    requires WellFormed(st)
    requires r.selectedProjects == st.selectedProjects
    requires r.projectTeams == st.projectTeams && r.teamMembers == st.teamMembers
    ensures WellFormed(r)
  {
    assert forall p :: r.Teams(p) == st.Teams(p);
  }

  /** `handleProjectToggle` keeps the selection well formed. */
  lemma ToggleProjectWellFormed(st: Wizard, p: string)
    requires WellFormed(st)
    ensures WellFormed(ToggleProject(st, p))
  {
    var r := ToggleProject(st, p);
    forall q | q in r.teamMembers
      ensures q in r.selectedProjects && forall u :: u in r.teamMembers[q] ==> u in r.Teams(q)
    {
      assert AgreeAt(r.teamMembers, st.teamMembers, q);
      assert AgreeAt(r.projectTeams, st.projectTeams, q);
    }
  }

  /** A member edit on a checked team of a selected project keeps the
      selection well formed. */
  lemma MemberEditWellFormed(st: Wizard, r: Wizard, t: string, p: string)
    requires WellFormed(st) && p in st.selectedProjects && t in st.Teams(p)
    requires r.selectedProjects == st.selectedProjects && r.projectTeams == st.projectTeams
    requires r.teamMembers.Keys == st.teamMembers.Keys + {p}
    requires p in r.teamMembers && r.teamMembers[p].Keys == st.MemberLists(p).Keys + {t}
    requires forall q :: q in r.teamMembers && q != p ==> r.teamMembers[q] == st.teamMembers[q]
    ensures WellFormed(r)
  {
    assert forall q :: r.Teams(q) == st.Teams(q);
  }

  lemma MemberToggleWellFormed(st: Wizard, m: string, t: string, p: string)
    requires WellFormed(st) && p in st.selectedProjects && t in st.Teams(p)
    ensures WellFormed(MemberToggle(st, m, t, p))
  {
    var r := MemberToggle(st, m, t, p);
    assert forall q :: q in r.teamMembers && q != p ==> r.teamMembers[q] == st.teamMembers[q];
    MemberEditWellFormed(st, r, t, p);
  }

  lemma ToggleAllWellFormed(cat: seq<Catalog.Team>, st: Wizard, t: string, p: string)
    requires WellFormed(st) && p in st.selectedProjects && t in st.Teams(p)
    ensures WellFormed(ToggleAllMembers(cat, st, t, p))
  {
    var r := ToggleAllMembers(cat, st, t, p);
    assert forall q :: q in r.teamMembers && q != p ==> r.teamMembers[q] == st.teamMembers[q];
    MemberEditWellFormed(st, r, t, p);
  }

  lemma SetActiveTeamWellFormed(st: Wizard, t: string)
    requires WellFormed(st) && st.CurrentProject() in st.selectedProjects
    ensures WellFormed(SetActiveTeam(st, t))
  {
    if t !in st.Teams(st.CurrentProject()) {
      TeamCheckboxWellFormed(st, t, st.CurrentProject());
    } else {
      SameSelectionWellFormed(st, SetActiveTeam(st, t));
    }
  }

  lemma NextWellFormed(st: Wizard, now: int)
    requires WellFormed(st)
    ensures WellFormed(Next(st, now))
  {
    if IsStepValid(st) && st.activeStep != LastStep {
      SameSelectionWellFormed(st, Next(st, now));
    }
  }

  /** Every enabled action keeps the selection well formed. */
  lemma ApplyWellFormed(cat: seq<Catalog.Team>, st: Wizard, e: Event)
    requires WellFormed(st) && Enabled(st, e)
    ensures WellFormed(Apply(cat, st, e))
  {
    match e
    case ProjectToggled(p) => ToggleProjectWellFormed(st, p);
    case TeamChecked(t, p) => TeamCheckboxWellFormed(st, t, p);
    case TeamRowClicked(t) => SetActiveTeamWellFormed(st, t);
    case MemberToggled(m, t, p) => MemberToggleWellFormed(st, m, t, p);
    case AllMembersToggled(t, p) => ToggleAllWellFormed(cat, st, t, p);
    case NextPressed(now) => NextWellFormed(st, now);
    case BackPressed => SameSelectionWellFormed(st, Back(st));
    case TabSelected(i) => SameSelectionWellFormed(st, SelectProjectTab(st, i));
    case OrgPicked(o) => SameSelectionWellFormed(st, SelectOrganization(st, o));
    case MappingDeleted(ts) => SameSelectionWellFormed(st, DeleteMapping(st, ts));
  }

  /** The mapping saved from a state whose first three steps are valid is complete. */
  lemma BuildMappingComplete(st: Wizard, now: int)
    requires StepValid(st, 0) && StepValid(st, 1) && StepValid(st, 2)
    ensures MappingComplete(BuildMapping(st, now))
  {
    var m := BuildMapping(st, now);
    assert st.selectedProjects[0] in m.projects;
    forall p | p in m.projects
      ensures |m.projects[p].teams| > 0
      ensures forall t :: t in m.projects[p].teams ==>
        t in m.projects[p].members && |m.projects[p].members[t]| > 0
    {
      assert ProjectValid(st, p);
      forall t | t in m.projects[p].teams
        ensures t in m.projects[p].members && |m.projects[p].members[t]| > 0
      {
        assert TeamValid(st, t, p);
      }
    }
  }

  /** `handleNext` keeps the step gate and the saved list complete. */
  lemma NextKeepsGate(st: Wizard, now: int)
    requires Gated(st) && AllComplete(st.savedMappings)
    ensures Gated(Next(st, now)) && AllComplete(Next(st, now).savedMappings)
  {
    var r := Next(st, now);
    if IsStepValid(st) && st.activeStep == LastStep {
      BuildMappingComplete(st, now);
      assert forall m :: m in r.savedMappings ==> m in st.savedMappings || m == BuildMapping(st, now);
    } else if IsStepValid(st) {
      forall k | 0 <= k < r.activeStep ensures StepValid(r, k) {
        StepValidIgnoresActiveStep(st, r.activeStep, k);
      }
    }
  }

  /** Every enabled action keeps the step gate and the saved list complete. */
  lemma ApplyGated(cat: seq<Catalog.Team>, st: Wizard, e: Event)
    requires Gated(st) && AllComplete(st.savedMappings) && Enabled(st, e)
    ensures Gated(Apply(cat, st, e)) && AllComplete(Apply(cat, st, e).savedMappings)
  {
    var r := Apply(cat, st, e);
    match e
    case NextPressed(now) =>
      NextKeepsGate(st, now);
    case BackPressed =>
      forall k | 0 <= k < r.activeStep ensures StepValid(r, k) {
        StepValidIgnoresActiveStep(st, r.activeStep, k);
      }
    case ProjectToggled(_) =>
      assert StepValid(r, 0) == StepValid(st, 0);
    case OrgPicked(_) =>
    case MappingDeleted(_) =>
    case TabSelected(_) =>
      SelectionEditKeepsEarlySteps(st, r);
    case TeamChecked(_, _) =>
      SelectionEditKeepsEarlySteps(st, r);
    case TeamRowClicked(_) =>
      SelectionEditKeepsEarlySteps(st, r);
    case MemberToggled(_, _, _) =>
      SelectionEditKeepsEarlySteps(st, r);
    case AllMembersToggled(_, _) =>
      SelectionEditKeepsEarlySteps(st, r);
  }

  /** Every enabled action keeps the invariant. */
  lemma ApplyInvariant(cat: seq<Catalog.Team>, st: Wizard, e: Event)
    requires Invariant(st) && Enabled(st, e)
    ensures Invariant(Apply(cat, st, e))
  {
    ApplyWellFormed(cat, st, e);
    ApplyGated(cat, st, e);
  }

  /** A run of actions, each offered by the page in the state it meets. */
  predicate EnabledRun(cat: seq<Catalog.Team>, st: Wizard, es: seq<Event>)
    decreases |es|
  {
    |es| == 0 || (Enabled(st, es[0]) && EnabledRun(cat, Apply(cat, st, es[0]), es[1..]))
  }

  function Run(cat: seq<Catalog.Team>, st: Wizard, es: seq<Event>): Wizard
    decreases |es|
  {
    if |es| == 0 then st else Run(cat, Apply(cat, st, es[0]), es[1..])
  }

  lemma {:induction false} RunInvariant(cat: seq<Catalog.Team>, st: Wizard, es: seq<Event>)
    requires Invariant(st) && EnabledRun(cat, st, es)
    ensures Invariant(Run(cat, st, es))
    decreases |es|
  {
    if |es| > 0 {
      ApplyInvariant(cat, st, es[0]);
      RunInvariant(cat, Apply(cat, st, es[0]), es[1..]);
    }
  }

  /** Whatever the user does through the page, starting from a store of
      complete mappings, no child selection dangles, the wizard never stands
      on a step whose predecessors are invalid, and every mapping in the
      saved list is complete. */
  lemma SessionInvariant(cat: seq<Catalog.Team>, loaded: seq<Mapping>, es: seq<Event>)
    requires AllComplete(loaded)
    requires EnabledRun(cat, Initial(loaded), es)
    ensures WellFormed(Run(cat, Initial(loaded), es))
    ensures Gated(Run(cat, Initial(loaded), es))
    ensures AllComplete(Run(cat, Initial(loaded), es).savedMappings)
  {
    RunInvariant(cat, Initial(loaded), es);
  }

  /** Toggling projects one after another. */
  function ToggleProjects(st: Wizard, ps: seq<string>): Wizard
    decreases |ps|
  {
    if |ps| == 0 then st else ToggleProjects(ToggleProject(st, ps[0]), ps[1..])
  }

  /** After a series of project toggles from an empty selection, the
      selected projects are those toggled an odd number of times, each once. */
  lemma {:induction false} ProjectToggleParity(st: Wizard, ps: seq<string>, x: string)
    ensures ToggleProjects(st, ps).selectedProjects == ToggleEach(st.selectedProjects, ps)
    ensures st.selectedProjects == [] ==>
      (x in ToggleProjects(st, ps).selectedProjects <==> Count(ps, x) % 2 == 1)
      && NoDup(ToggleProjects(st, ps).selectedProjects)
    decreases |ps|
  {
    if |ps| > 0 {
      ProjectToggleParity(ToggleProject(st, ps[0]), ps[1..], x);
    }
    ToggleEachFromEmpty(ps, x);
  }

  /** Removing a project and selecting it again does not bring back its
      teams or member lists: it returns as the last project with none. Its
      select-all latches do come back, since the project toggle never
      touches them. */
  lemma ProjectReselectStartsEmpty(st: Wizard, p: string)
    requires p in st.selectedProjects
    ensures var r := ToggleProject(ToggleProject(st, p), p);
      && r.selectedProjects[|r.selectedProjects| - 1] == p
      && r.Teams(p) == [] && r.MemberLists(p) == map[]
      && r.selectAllStatus == st.selectAllStatus
  {
  }

  /** Two select-all clicks restore the latch; the list ends as the full
      roster when the latch was on and empty when it was off, whatever it
      held before (the latch is stored, not derived from the list). */
  lemma ToggleAllTwice(cat: seq<Catalog.Team>, st: Wizard, t: string, p: string)
    ensures var r := ToggleAllMembers(cat, ToggleAllMembers(cat, st, t, p), t, p);
      && r.Latch(p, t) == st.Latch(p, t)
      && r.Members(p, t) == (if st.Latch(p, t) then Catalog.RosterOf(cat, t) else [])
  {
  }

  /** Member and team edits never move a latch: after a manual edit the
      latch can disagree with the list. */
  lemma LatchSurvivesManualEdits(st: Wizard, m: string, t: string, p: string, q: string, u: string)
    ensures MemberToggle(st, m, t, p).Latch(q, u) == st.Latch(q, u)
    ensures TeamCheckbox(st, t, p).Latch(q, u) == st.Latch(q, u)
    ensures ToggleProject(st, p).Latch(q, u) == st.Latch(q, u)
  {
  }

  /** The latch can say "all selected" while the list is empty: select all,
      then untick the only member by hand. */
  lemma LatchDesync(st: Wizard, t: string, p: string, name: string)
    requires !st.Latch(p, t)
    ensures var cat := [Catalog.Team(t, [Catalog.Member(name, None)])];
      var r := MemberToggle(ToggleAllMembers(cat, st, t, p), name, t, p);
      r.Latch(p, t) && r.Members(p, t) == []
  {
    var cat := [Catalog.Team(t, [Catalog.Member(name, None)])];
    assert Catalog.FindTeam(cat, t) == Some(cat[0]);
    var r1 := ToggleAllMembers(cat, st, t, p);
    assert r1.Members(p, t) == [name];
    assert Without([name], name) == [];
  }

  /** Advancing from a valid step that is not the last and going back
      returns to the same state. */
  lemma NextThenBack(st: Wizard, now: int)
    requires IsStepValid(st) && st.activeStep != LastStep
    ensures Back(Next(st, now)) == st
  {
  }

  /** Going back and advancing again returns to the same state when the
      earlier step is still valid and is not the last. */
  lemma BackThenNext(st: Wizard, now: int)
    requires StepValid(st, st.activeStep - 1) && st.activeStep - 1 != LastStep
    ensures Next(Back(st), now) == st
  {
    StepValidIgnoresActiveStep(st, st.activeStep - 1, st.activeStep - 1);
  }

  /** A reset wizard is on step 0 with no organization, so Next is refused
      and leaves it where it is. */
  lemma ResetBlocksNext(st: Wizard, now: int)
    ensures !IsStepValid(ResetForm(st))
    ensures Next(ResetForm(st), now) == ResetForm(st)
  {
  }

  /** Deleting keeps the survivors in order: deleting from a concatenation
      deletes from each part. */
  lemma WithoutTimestampAppend(a: seq<Mapping>, b: seq<Mapping>, ts: int)
    ensures WithoutTimestamp(a + b, ts) == WithoutTimestamp(a, ts) + WithoutTimestamp(b, ts)
  {
    FilterAppend(a, b, (m: Mapping) => m.timestamp != ts);
  }

  /** Saving and then deleting by the fresh timestamp gives back the saved
      list as it was, when no earlier mapping carries that timestamp. */
  lemma SaveThenDelete(st: Wizard, now: int)
    requires forall i :: 0 <= i < |st.savedMappings| ==> st.savedMappings[i].timestamp != now
    ensures DeleteMapping(SaveConfiguration(st, now), now).savedMappings == st.savedMappings
  {
    var saved := SaveConfiguration(st, now).savedMappings;
    assert saved == st.savedMappings + [BuildMapping(st, now)];
    WithoutTimestampAppend(st.savedMappings, [BuildMapping(st, now)], now);
    assert WithoutTimestamp([BuildMapping(st, now)], now) == [];
  }

  /** The catalog of the end-to-end scenario below. */
  function ScenarioCatalog(): seq<Catalog.Team> {
    [Catalog.Team("Platform", [Catalog.Member("Alice", Some("NYC")), Catalog.Member("Bob", None)])]
  }

  /** The state the scenario reaches on the Teams & Members step. */
  lemma AcmeSelection(saved: seq<Mapping>, now: int)
    ensures var st := Run(ScenarioCatalog(), Initial(saved),
      [OrgPicked("Acme"), NextPressed(now), ProjectToggled("PROJ1"), NextPressed(now),
       TeamChecked("Platform", "PROJ1"), MemberToggled("Alice (NYC)", "Platform", "PROJ1")]);
      && st.activeStep == 2 && st.selectedOrg == "Acme" && st.selectedProjects == ["PROJ1"]
      && st.Teams("PROJ1") == ["Platform"] && st.Members("PROJ1", "Platform") == ["Alice (NYC)"]
      && st.savedMappings == saved
  {
    var cat := ScenarioCatalog();
    var es := [OrgPicked("Acme"), NextPressed(now), ProjectToggled("PROJ1"), NextPressed(now),
       TeamChecked("Platform", "PROJ1"), MemberToggled("Alice (NYC)", "Platform", "PROJ1")];
    var s1 := SelectOrganization(Initial(saved), "Acme");
    assert Run(cat, Initial(saved), es) == Run(cat, s1, es[1..]);
    var s2 := Next(s1, now);
    assert s2.activeStep == 1;
    assert Run(cat, s1, es[1..]) == Run(cat, s2, es[2..]);
    var s3 := ToggleProject(s2, "PROJ1");
    assert s3.selectedProjects == ["PROJ1"];
    assert Run(cat, s2, es[2..]) == Run(cat, s3, es[3..]);
    var s4 := Next(s3, now);
    assert s4.activeStep == 2;
    assert Run(cat, s3, es[3..]) == Run(cat, s4, es[4..]);
    var s5 := TeamCheckbox(s4, "Platform", "PROJ1");
    assert s5.Teams("PROJ1") == ["Platform"];
    assert Run(cat, s4, es[4..]) == Run(cat, s5, es[5..]);
    var s6 := MemberToggle(s5, "Alice (NYC)", "Platform", "PROJ1");
    assert s6.Members("PROJ1", "Platform") == ["Alice (NYC)"];
    assert Run(cat, s5, es[5..]) == Run(cat, s6, []);
  }

  /** The mapping the scenario saves. */
  function AcmeMapping(now: int): Mapping {
    Mapping("Acme", map["PROJ1" := ProjectEntry(["Platform"], map["Platform" := ["Alice (NYC)"]])], now)
  }

  /** From the state the selection reaches, pressing Next twice (to the
      review step, then save) appends the scenario's mapping and clears the form. */
  lemma AcmeSave(cat: seq<Catalog.Team>, s6: Wizard, now: int)
    requires s6.activeStep == 2 && s6.selectedOrg == "Acme" && s6.selectedProjects == ["PROJ1"]
    requires s6.Teams("PROJ1") == ["Platform"] && s6.Members("PROJ1", "Platform") == ["Alice (NYC)"]
    ensures var r := Run(cat, s6, [NextPressed(now), NextPressed(now)]);
      Pristine(r) && r.savedMappings == s6.savedMappings + [AcmeMapping(now)]
  {
    assert ProjectValid(s6, "PROJ1");
    assert IsStepValid(s6);
    var s7 := Next(s6, now);
    assert s7.activeStep == 3;
    var s8 := Next(s7, now);
    assert [NextPressed(now), NextPressed(now)][1..] == [NextPressed(now)];
    assert Run(cat, s7, [NextPressed(now)]) == s8;
    var m := BuildMapping(s7, now);
    assert m.projects.Keys == {"PROJ1"};
    assert m.projects["PROJ1"].members.Keys == {"Platform"};
    assert m == AcmeMapping(now);
  }

  /** One complete pass: organization "Acme", project "PROJ1", team
      "Platform" with roster Alice (NYC) and Bob, member Alice, then save.
      Exactly one mapping is appended and the form is empty again. */
  lemma AcmeScenario(saved: seq<Mapping>, now: int)
    ensures var es := [OrgPicked("Acme"), NextPressed(now), ProjectToggled("PROJ1"), NextPressed(now),
                 TeamChecked("Platform", "PROJ1"), MemberToggled("Alice (NYC)", "Platform", "PROJ1"),
                 NextPressed(now), NextPressed(now)];
      var r := Run(ScenarioCatalog(), Initial(saved), es);
      && TeamMembersList(ScenarioCatalog(), "Platform") == ["Alice (NYC)", "Bob"]
      && Pristine(r)
      && r.savedMappings == saved + [AcmeMapping(now)]
  {
    var cat := ScenarioCatalog();
    assert Catalog.FindTeam(cat, "Platform") == Some(cat[0]);
    assert Catalog.FormatMember(Catalog.Member("Alice", Some("NYC"))) == "Alice (NYC)";
    var front := [OrgPicked("Acme"), NextPressed(now), ProjectToggled("PROJ1"), NextPressed(now),
                  TeamChecked("Platform", "PROJ1"), MemberToggled("Alice (NYC)", "Platform", "PROJ1")];
    var back := [NextPressed(now), NextPressed(now)];
    assert front + back == [OrgPicked("Acme"), NextPressed(now), ProjectToggled("PROJ1"), NextPressed(now),
                 TeamChecked("Platform", "PROJ1"), MemberToggled("Alice (NYC)", "Platform", "PROJ1"),
                 NextPressed(now), NextPressed(now)];
    AcmeSelection(saved, now);
    RunAppend(cat, Initial(saved), front, back);
    AcmeSave(cat, Run(cat, Initial(saved), front), now);
  }

  lemma {:induction false} RunAppend(cat: seq<Catalog.Team>, st: Wizard, a: seq<Event>, b: seq<Event>)
    ensures Run(cat, st, a + b) == Run(cat, Run(cat, st, a), b)
    decreases |a|
  {
    if |a| == 0 {
      assert a + b == b;
    } else {
      assert (a + b)[0] == a[0] && (a + b)[1..] == a[1..] + b;
      RunAppend(cat, Apply(cat, st, a[0]), a[1..], b);
    }
  }
}

=== FILE: nested_wizard.dfy ===
/** The four-step wizard of `s.tsx`: Organization, Projects, Teams & Members,
    Review. Its selection is kept as a list of projects, a project -> teams
    map and a project -> team -> members map; every handler below is the
    combined effect of the React state updates it issues, applied at once. */
module NestedWizard {
  import opened Optional
  import opened Seqs
  import Catalog

  /** Number of steps; the last one (Review) saves instead of advancing. */
  const StepCount: int := 4
  const LastStep: int := StepCount - 1

  /** One project of a saved mapping: its teams and, per team, its members. */
  datatype ProjectEntry = ProjectEntry(teams: seq<string>, members: map<string, seq<string>>)

  /** A saved configuration. */
  datatype Mapping = Mapping(organization: string, projects: map<string, ProjectEntry>, timestamp: int)

  /** The component state that the handlers read and write. */
  datatype Wizard = Wizard(
    activeStep: int,
    selectedOrg: string,
    selectedProjects: seq<string>,
    projectTeams: map<string, seq<string>>,
    teamMembers: map<string, map<string, seq<string>>>,
    currentProjectIndex: int,
    activeTeam: string,
    selectAllStatus: map<string, map<string, bool>>,
    savedMappings: seq<Mapping>)
  {
    /** `projectTeams[p] || []` */
    function Teams(p: string): seq<string> {
      if p in projectTeams then projectTeams[p] else []
    }

    /** `teamMembers[p] || {}` */
    function MemberLists(p: string): map<string, seq<string>> {
      if p in teamMembers then teamMembers[p] else map[]
    }

    /** `teamMembers[p]?.[t] || []` */
    function Members(p: string, t: string): seq<string> {
      if t in MemberLists(p) then MemberLists(p)[t] else []
    }

    /** `selectAllStatus[p] || {}` */
    function Latches(p: string): map<string, bool> {
      if p in selectAllStatus then selectAllStatus[p] else map[]
    }

    /** `selectAllStatus[p]?.[t] || false` */
    function Latch(p: string, t: string): bool {
      t in Latches(p) && Latches(p)[t]
    }

    /** `selectedProjects[currentProjectIndex] || ''` */
    function CurrentProject(): string {
      if 0 <= currentProjectIndex < |selectedProjects| then selectedProjects[currentProjectIndex] else ""
    }
  }

  /** Two maps agree at key `k`: both lack it, or both hold the same value. */
  predicate AgreeAt<K, V(==)>(a: map<K, V>, b: map<K, V>, k: K) {
    (k in a <==> k in b) && (k in a ==> a[k] == b[k])
  }

  /** Step, organization, tab index and saved list are the same in both states. */
  predicate SameNavigation(a: Wizard, b: Wizard) {
    && a.activeStep == b.activeStep
    && a.selectedOrg == b.selectedOrg
    && a.currentProjectIndex == b.currentProjectIndex
    && a.savedMappings == b.savedMappings
  }

  /** The form as mounted, or as `resetForm` leaves it. */
  predicate Pristine(st: Wizard) {
    && st.activeStep == 0
    && st.selectedOrg == ""
    && st.selectedProjects == []
    && st.projectTeams == map[]
    && st.teamMembers == map[]
    && st.currentProjectIndex == 0
    && st.activeTeam == ""
    && st.selectAllStatus == map[]
  }

  /** The state at mount, with the mappings read from storage. */
  function Initial(saved: seq<Mapping>): Wizard {
    Wizard(0, "", [], map[], map[], 0, "", map[], saved)
  }

  /** `getTeamMembersList` */
  function TeamMembersList(cat: seq<Catalog.Team>, team: string): (r: seq<string>)
    ensures (forall i :: 0 <= i < |cat| ==> cat[i].name != team) ==> r == []
    ensures forall t :: Catalog.FindTeam(cat, team) == Some(t) ==>
      |r| == |t.members| && forall i :: 0 <= i < |r| ==> r[i] == Catalog.FormatMember(t.members[i])
  {
    Catalog.RosterOf(cat, team)
  }

  /** The organization picker: it replaces the organization and, in this
      variant, leaves the rest of the selection alone. */
  function SelectOrganization(st: Wizard, org: string): (r: Wizard)
    ensures r.selectedOrg == org
    ensures r.(selectedOrg := st.selectedOrg) == st
  {
    st.(selectedOrg := org)
  }

  /** `handleProjectToggle` */
  function ToggleProject(st: Wizard, p: string): (r: Wizard)
    ensures r.selectedProjects == Toggle(st.selectedProjects, p)
    ensures p in r.selectedProjects <==> p !in st.selectedProjects
    ensures p in st.selectedProjects ==> p !in r.projectTeams && p !in r.teamMembers
    ensures p !in st.selectedProjects ==> r.projectTeams == st.projectTeams && r.teamMembers == st.teamMembers
    ensures forall q :: q != p ==>
      AgreeAt(r.projectTeams, st.projectTeams, q) && AgreeAt(r.teamMembers, st.teamMembers, q)
    ensures SameNavigation(r, st) && r.activeTeam == st.activeTeam
    ensures r.selectAllStatus == st.selectAllStatus
  {
    if p in st.selectedProjects then
      st.(selectedProjects := Without(st.selectedProjects, p),
          projectTeams := st.projectTeams - {p},
          teamMembers := st.teamMembers - {p})
    else
      st.(selectedProjects := st.selectedProjects + [p])
  }

  /** `handleTeamCheckbox` */
  function TeamCheckbox(st: Wizard, t: string, p: string): (r: Wizard)
    ensures r.Teams(p) == Toggle(st.Teams(p), t)
    ensures p in r.projectTeams && p in r.teamMembers
    ensures forall q :: q != p ==>
      AgreeAt(r.projectTeams, st.projectTeams, q) && AgreeAt(r.teamMembers, st.teamMembers, q)
    ensures forall u :: u != t ==> AgreeAt(r.teamMembers[p], st.MemberLists(p), u)
    ensures t in st.Teams(p) ==> t !in r.teamMembers[p]
    ensures t in st.Teams(p) ==> r.activeTeam == (if st.activeTeam == t then "" else st.activeTeam)
    ensures t !in st.Teams(p) ==>
      t in r.teamMembers[p] && r.Members(p, t) == st.Members(p, t) && r.activeTeam == t
    ensures SameNavigation(r, st) && r.selectedProjects == st.selectedProjects
    ensures r.selectAllStatus == st.selectAllStatus
  {
    var already := st.Teams(p);
    var lists := st.MemberLists(p);
    if t in already then
      st.(projectTeams := st.projectTeams[p := Without(already, t)],
          teamMembers := st.teamMembers[p := lists - {t}],
          activeTeam := if t == st.activeTeam then "" else st.activeTeam)
    else
      st.(projectTeams := st.projectTeams[p := already + [t]],
          teamMembers := st.teamMembers[p := if t in lists then lists else lists[t := []]],
          activeTeam := t)
  }

  /** `handleSetActiveTeam`: clicking a team row of the current project
      selects the team if needed and focuses it; no member list changes. */
  function SetActiveTeam(st: Wizard, t: string): (r: Wizard)
    ensures r.activeTeam == t
    ensures t in r.Teams(st.CurrentProject())
    ensures forall u :: u in st.Teams(st.CurrentProject()) ==> u in r.Teams(st.CurrentProject())
    ensures t in st.Teams(st.CurrentProject()) ==> r == st.(activeTeam := t)
    ensures t !in st.Teams(st.CurrentProject()) ==>
      r.Teams(st.CurrentProject()) == st.Teams(st.CurrentProject()) + [t]
    ensures forall q, u :: r.Members(q, u) == st.Members(q, u)
    ensures forall q :: q != st.CurrentProject() ==>
      AgreeAt(r.projectTeams, st.projectTeams, q) && AgreeAt(r.teamMembers, st.teamMembers, q)
    ensures SameNavigation(r, st) && r.selectedProjects == st.selectedProjects
    ensures r.selectAllStatus == st.selectAllStatus
  {
    var cp := st.CurrentProject();
    if t !in st.Teams(cp) then TeamCheckbox(st, t, cp) else st.(activeTeam := t)
  }

  /** `handleTeamMemberToggle` */
  function MemberToggle(st: Wizard, m: string, t: string, p: string): (r: Wizard)
    ensures r.Members(p, t) == Toggle(st.Members(p, t), m)
    ensures m in r.Members(p, t) <==> m !in st.Members(p, t)
    ensures forall q, u :: (q, u) != (p, t) ==> r.Members(q, u) == st.Members(q, u)
    ensures r.teamMembers.Keys == st.teamMembers.Keys + {p}
    ensures r.teamMembers[p].Keys == st.MemberLists(p).Keys + {t}
    ensures r.projectTeams == st.projectTeams && r.selectedProjects == st.selectedProjects
    ensures SameNavigation(r, st) && r.activeTeam == st.activeTeam
    ensures r.selectAllStatus == st.selectAllStatus
  {
    st.(teamMembers := st.teamMembers[p := st.MemberLists(p)[t := Toggle(st.Members(p, t), m)]])
  }

  /** `handleToggleAllMembers`: the select-all latch of (p, t) decides
      whether the list becomes the full roster or empty, and is flipped. It
      is read as stored, never recomputed from the member list. */
  function ToggleAllMembers(cat: seq<Catalog.Team>, st: Wizard, t: string, p: string): (r: Wizard)
    ensures r.Latch(p, t) == !st.Latch(p, t)
    ensures !st.Latch(p, t) ==> r.Members(p, t) == Catalog.RosterOf(cat, t)
    ensures st.Latch(p, t) ==> r.Members(p, t) == []
    ensures forall q, u :: (q, u) != (p, t) ==>
      r.Members(q, u) == st.Members(q, u) && r.Latch(q, u) == st.Latch(q, u)
    ensures r.teamMembers.Keys == st.teamMembers.Keys + {p}
    ensures r.teamMembers[p].Keys == st.MemberLists(p).Keys + {t}
    ensures r.projectTeams == st.projectTeams && r.selectedProjects == st.selectedProjects
    ensures SameNavigation(r, st) && r.activeTeam == st.activeTeam
  {
    var on := st.Latch(p, t);
    var all := TeamMembersList(cat, t);
    st.(teamMembers := st.teamMembers[p := st.MemberLists(p)[t := if on then [] else all]],
        selectAllStatus := st.selectAllStatus[p := st.Latches(p)[t := !on]])
  }

  /** `handleProjectTabChange` */
  function SelectProjectTab(st: Wizard, index: int): (r: Wizard)
    ensures r.currentProjectIndex == index
    ensures 0 <= index < |st.selectedProjects| ==> r.CurrentProject() == st.selectedProjects[index]
    ensures r.activeTeam == ""
    ensures r.(currentProjectIndex := st.currentProjectIndex, activeTeam := st.activeTeam) == st
  {
    st.(currentProjectIndex := index, activeTeam := "")
  }

  /** `isTeamValid` */
  predicate TeamValid(st: Wizard, t: string, p: string) {
    |st.Members(p, t)| > 0
  }

  /** `isProjectValid` */
  predicate ProjectValid(st: Wizard, p: string) {
    |st.Teams(p)| > 0 && forall t :: t in st.Teams(p) ==> TeamValid(st, t, p)
  }

  /** The validity test `isStepValid` applies when the wizard is at `step`. */
  function StepValid(st: Wizard, step: int): (r: bool)
    ensures step == 0 ==> (r <==> st.selectedOrg != "")
    ensures step == 1 ==> (r <==> |st.selectedProjects| > 0)
    ensures step == 2 ==> (r <==> forall p :: p in st.selectedProjects ==> ProjectValid(st, p))
    ensures step !in {0, 1, 2} ==> r
  {
    match step
    case 0 => st.selectedOrg != ""
    case 1 => |st.selectedProjects| > 0
    case 2 =>
      var sp := st.selectedProjects;
      var eachProjectHasTeam := forall i :: 0 <= i < |sp| ==> |st.Teams(sp[i])| > 0;
      var eachTeamHasMembers := forall i :: 0 <= i < |sp| ==>
        forall j :: 0 <= j < |st.Teams(sp[i])| ==> |st.Members(sp[i], st.Teams(sp[i])[j])| > 0;
      assert eachProjectHasTeam && eachTeamHasMembers <==>
        forall p :: p in sp ==> ProjectValid(st, p) by {
        if forall p :: p in sp ==> ProjectValid(st, p) {
          forall i | 0 <= i < |sp| ensures |st.Teams(sp[i])| > 0 {
            assert ProjectValid(st, sp[i]);
          }
          forall i, j | 0 <= i < |sp| && 0 <= j < |st.Teams(sp[i])|
            ensures |st.Members(sp[i], st.Teams(sp[i])[j])| > 0 {
            assert ProjectValid(st, sp[i]);
            assert st.Teams(sp[i])[j] in st.Teams(sp[i]);
          }
        }
      }
      eachProjectHasTeam && eachTeamHasMembers
    case _ => true
  }

  /** `isStepValid` */
  function IsStepValid(st: Wizard): bool {
    StepValid(st, st.activeStep)
  }

  /** The members map built for project `p` from the teams `ts`, one entry per
      team, as the inner `forEach` of `saveConfiguration` builds it. */
  function BuildMembers(st: Wizard, p: string, ts: seq<string>): (r: map<string, seq<string>>)
    ensures r.Keys == set t | t in ts
    ensures forall t :: t in r ==> r[t] == st.Members(p, t)
  {
    if |ts| == 0 then map[]
    else
      var last := ts[|ts| - 1];
      assert ts == ts[..|ts| - 1] + [last];
      BuildMembers(st, p, ts[..|ts| - 1])[last := st.Members(p, last)]
  }

  /** The entry saved for project `p`. */
  function EntryFor(st: Wizard, p: string): ProjectEntry {
    ProjectEntry(st.Teams(p), BuildMembers(st, p, st.Teams(p)))
  }

  /** The projects map built from the projects `ps` by the outer `forEach`. */
  function BuildProjects(st: Wizard, ps: seq<string>): (r: map<string, ProjectEntry>)
    ensures r.Keys == set p | p in ps
    ensures forall p :: p in r ==>
      r[p].teams == st.Teams(p)
      && r[p].members.Keys == (set t | t in st.Teams(p))
      && forall t :: t in r[p].members ==> r[p].members[t] == st.Members(p, t)
  {
    if |ps| == 0 then map[]
    else
      var last := ps[|ps| - 1];
      assert ps == ps[..|ps| - 1] + [last];
      BuildProjects(st, ps[..|ps| - 1])[last := EntryFor(st, last)]
  }

  /** The mapping `saveConfiguration` records for the current selection. */
  function BuildMapping(st: Wizard, now: int): (m: Mapping)
    ensures m.organization == st.selectedOrg && m.timestamp == now
    ensures m.projects.Keys == set p | p in st.selectedProjects
    ensures forall p :: p in m.projects ==>
      m.projects[p].teams == st.Teams(p)
      && m.projects[p].members.Keys == (set t | t in st.Teams(p))
      && forall t :: t in m.projects[p].members ==> m.projects[p].members[t] == st.Members(p, t)
  {
    Mapping(st.selectedOrg, BuildProjects(st, st.selectedProjects), now)
  }

  /** `resetForm`: back to step 0 with an empty selection; the saved list stays. */
  function ResetForm(st: Wizard): (r: Wizard)
    ensures Pristine(r) && r.savedMappings == st.savedMappings
  {
    Initial(st.savedMappings)
  }

  /** `saveConfiguration`: appends exactly one mapping, built from the
      selection and stamped with the clock reading `now`, then resets the form. */
  function SaveConfiguration(st: Wizard, now: int): (r: Wizard)
    ensures |r.savedMappings| == |st.savedMappings| + 1
    ensures r.savedMappings[..|st.savedMappings|] == st.savedMappings
    ensures r.savedMappings[|st.savedMappings|] == BuildMapping(st, now)
    ensures Pristine(r)
  {
    ResetForm(st.(savedMappings := st.savedMappings + [BuildMapping(st, now)]))
  }

  /** `handleNext`: an invalid step stays put, a valid step advances, and the
      valid last step saves. */
  function Next(st: Wizard, now: int): (r: Wizard)
    ensures !IsStepValid(st) ==> r == st
    ensures IsStepValid(st) && st.activeStep != LastStep ==>
      r.activeStep == st.activeStep + 1 && r.(activeStep := st.activeStep) == st
    ensures IsStepValid(st) && st.activeStep == LastStep ==>
      Pristine(r) && r.savedMappings == st.savedMappings + [BuildMapping(st, now)]
  {
    if !IsStepValid(st) then st
    else if st.activeStep == LastStep then SaveConfiguration(st, now)
    else st.(activeStep := st.activeStep + 1)
  }

  /** `handleBack` */
  function Back(st: Wizard): (r: Wizard)
    ensures r.activeStep == st.activeStep - 1
    ensures r.(activeStep := st.activeStep) == st
  {
    st.(activeStep := st.activeStep - 1)
  }

  /** The saved list without the mappings stamped `ts`. */
  function WithoutTimestamp(ms: seq<Mapping>, ts: int): (r: seq<Mapping>)
    ensures forall m :: m in r <==> m in ms && m.timestamp != ts
    ensures |r| <= |ms|
    ensures (forall i :: 0 <= i < |ms| ==> ms[i].timestamp != ts) ==> r == ms
  {
    Filter(ms, (m: Mapping) => m.timestamp != ts)
  }

  /** `handleDeleteMapping` */
  function DeleteMapping(st: Wizard, ts: int): (r: Wizard)
    ensures forall m :: m in r.savedMappings <==> m in st.savedMappings && m.timestamp != ts
    ensures r.(savedMappings := st.savedMappings) == st
  {
    st.(savedMappings := WithoutTimestamp(st.savedMappings, ts))
  }
}

=== FILE: optional.dfy ===
/** An optional value: the model's stand-in for a JavaScript value that may
    be `undefined` or `null`. */
module Optional {

  datatype Option<+T> = None | Some(value: T) {

    /** The wrapped value, or `default` when there is none (the `x || d` idiom). */
    function GetOr(default: T): T {
      match this
      case Some(v) => v
      case None => default
    }
  }
}

=== FILE: seqs.dfy ===
/** Sequence operations the wizard relies on: `Array.prototype.filter`,
    `includes`-based toggling, `findIndex`, and de-duplication through a `Set`. */
module Seqs {

  /** No element occurs twice. */
  predicate NoDup<T(==,!new)>(s: seq<T>) {
    forall i, j :: 0 <= i < j < |s| ==> s[i] != s[j]
  }

  /** The elements of `s` that satisfy `keep`, in their original order. */
  function Filter<T(==,!new)>(s: seq<T>, keep: T -> bool): (r: seq<T>)
    ensures |r| <= |s|
    ensures forall x :: x in r <==> x in s && keep(x)
    ensures (forall i :: 0 <= i < |s| ==> keep(s[i])) ==> r == s
    ensures NoDup(s) ==> NoDup(r)
  {
    if |s| == 0 then []
    else if keep(s[0]) then [s[0]] + Filter(s[1..], keep)
    else Filter(s[1..], keep)
  }

  /** Filtering distributes over concatenation: the kept elements of the
      first part all come before those of the second. */
  lemma {:induction false} FilterAppend<T(!new)>(a: seq<T>, b: seq<T>, keep: T -> bool)
    ensures Filter(a + b, keep) == Filter(a, keep) + Filter(b, keep)
  {
    if |a| == 0 {
      assert a + b == b;
    } else {
      assert (a + b)[0] == a[0];
      assert (a + b)[1..] == a[1..] + b;
      FilterAppend(a[1..], b, keep);
    }
  }

  /** `s.filter(y => y !== x)`. */
  function Without<T(==,!new)>(s: seq<T>, x: T): (r: seq<T>)
    ensures x !in r
    ensures forall y :: y != x ==> (y in r <==> y in s)
    ensures x !in s ==> r == s
    ensures NoDup(s) ==> NoDup(r)
  {
    Filter(s, y => y != x)
  }

  /** Removing the single occurrence of an element from a duplicate-free
      sequence closes the gap and keeps every other element in place. */
  lemma WithoutAt<T(!new)>(s: seq<T>, i: int)
    requires NoDup(s)
    requires 0 <= i < |s|
    ensures Without(s, s[i]) == s[..i] + s[i+1..]
    ensures |Without(s, s[i])| == |s| - 1
  {
    var x := s[i];
    var keep := (y: T) => y != x;
    var pre, post := s[..i], s[i+1..];
    assert s == pre + ([x] + post);
    FilterAppend(pre, [x] + post, keep);
    FilterAppend([x], post, keep);
    FilterKeepsAll(pre, x);
    FilterKeepsAll(post, x);
    assert Filter([x], keep) == [] by {
      assert [x][1..] == [];
    }
  }

  /** Filtering out an element that does not occur changes nothing. */
  lemma FilterKeepsAll<T(!new)>(s: seq<T>, x: T)
    requires x !in s
    ensures Filter(s, y => y != x) == s
  {
    var keep := (y: T) => y != x;
    assert forall k :: 0 <= k < |s| ==> keep(s[k]);
  }

  /** The `includes ? filter : append` toggle used by every checkbox handler. */
  function Toggle<T(==,!new)>(s: seq<T>, x: T): (r: seq<T>)
    ensures x in r <==> x !in s
    ensures forall y :: y != x ==> (y in r <==> y in s)
    ensures x !in s ==> r == s + [x]
    ensures x in s ==> r == Without(s, x)
    ensures NoDup(s) ==> NoDup(r)
  {
    if x in s then Without(s, x) else s + [x]
  }

  /** Toggling an element that is present removes exactly that element and
      keeps the others in order. */
  lemma ToggleRemovesInPlace<T(!new)>(s: seq<T>, i: int)
    requires NoDup(s)
    requires 0 <= i < |s|
    ensures Toggle(s, s[i]) == s[..i] + s[i+1..]
  {
    WithoutAt(s, i);
  }

  /** Toggling an absent element twice gives back the original sequence. */
  lemma ToggleTwiceAbsent<T(!new)>(s: seq<T>, x: T)
    requires x !in s
    ensures Toggle(Toggle(s, x), x) == s
  {
    var keep := (y: T) => y != x;
    FilterAppend(s, [x], keep);
    assert forall k :: 0 <= k < |s| ==> keep(s[k]);
    assert Filter([x], keep) == [] by {
      assert [x][1..] == [];
    }
  }

  /** How often `x` occurs in `s`. */
  function Count<T(==,!new)>(s: seq<T>, x: T): (n: nat)
    ensures n <= |s|
  {
    if |s| == 0 then 0 else (if s[0] == x then 1 else 0) + Count(s[1..], x)
  }

  /** The result of toggling the elements of `xs` one after another. */
  function ToggleEach<T(==,!new)>(s: seq<T>, xs: seq<T>): (r: seq<T>)
    ensures NoDup(s) ==> NoDup(r)
    decreases |xs|
  {
    if |xs| == 0 then s else ToggleEach(Toggle(s, xs[0]), xs[1..])
  }

  /** After a series of toggles an element is present exactly when it was
      present before and toggled an even number of times, or absent before
      and toggled an odd number of times. */
  lemma {:induction false} ToggleEachParity<T(!new)>(s: seq<T>, xs: seq<T>, x: T)
    ensures x in ToggleEach(s, xs) <==> (x in s <==> Count(xs, x) % 2 == 0)
    decreases |xs|
  {
    if |xs| > 0 {
      var s' := Toggle(s, xs[0]);
      ToggleEachParity(s', xs[1..], x);
      ToggleStep(s, xs, x);
    }
  }

  /** One toggle flips membership of `x` exactly when it toggles `x`, and
      changes the parity of its count exactly then. */
  lemma ToggleStep<T(!new)>(s: seq<T>, xs: seq<T>, x: T)
    requires |xs| > 0
    ensures (x in Toggle(s, xs[0]) <==> Count(xs[1..], x) % 2 == 0)
        <==> (x in s <==> Count(xs, x) % 2 == 0)
  {
    var b := x in Toggle(s, xs[0]);
    assert b <==> (xs[0] == x) != (x in s);
    CountStep(xs, x);
  }

  /** The first element changes the parity of the count exactly when it is `x`. */
  lemma CountStep<T(!new)>(xs: seq<T>, x: T)
    requires |xs| > 0
    ensures Count(xs, x) % 2 == 0 <==> ((xs[0] == x) != (Count(xs[1..], x) % 2 == 0))
  {
    var n := Count(xs[1..], x);
    if xs[0] == x {
      assert Count(xs, x) == 1 + n;
      Parity(n);
    } else {
      assert Count(xs, x) == n;
    }
  }

  /** A successor has the opposite parity. */
  lemma Parity(n: nat)
    ensures (1 + n) % 2 == 0 <==> n % 2 != 0
  {
  }

  /** Starting from nothing, the toggled-on elements are exactly those toggled
      an odd number of times, and none is duplicated. */
  lemma ToggleEachFromEmpty<T(!new)>(xs: seq<T>, x: T)
    ensures x in ToggleEach([], xs) <==> Count(xs, x) % 2 == 1
    ensures NoDup(ToggleEach([], xs))
  {
    ToggleEachParity([], xs, x);
  }

  /** The position of the first occurrence of `x` in `s`. */
  function IndexOf<T(==,!new)>(s: seq<T>, x: T): (i: nat)
    requires x in s
    ensures i < |s| && s[i] == x
    ensures forall j :: 0 <= j < i ==> s[j] != x
  {
    if s[0] == x then 0 else 1 + IndexOf(s[1..], x)
  }

  /** Appending an element does not move the first occurrence of an element
      already present. */
  lemma IndexOfAppend<T(!new)>(s: seq<T>, e: T, x: T)
    requires x in s
    ensures IndexOf(s + [e], x) == IndexOf(s, x)
  {
    var i := IndexOf(s, x);
    assert (s + [e])[i] == x;
  }

  /** `[...new Set(s)]`: the distinct elements of `s` in order of first
      occurrence. */
  function Dedup<T(==,!new)>(s: seq<T>): (r: seq<T>)
    ensures NoDup(r)
    ensures forall x :: x in r <==> x in s
    ensures |r| <= |s|
  {
    if |s| == 0 then []
    else
      var d := Dedup(s[..|s| - 1]);
      assert s == s[..|s| - 1] + [s[|s| - 1]];
      if s[|s| - 1] in d then d else d + [s[|s| - 1]]
  }

  /** The distinct elements come out in the order in which each first occurs. */
  lemma {:induction false} DedupFirstOccurrenceOrder<T(!new)>(s: seq<T>)
    ensures forall i, j :: 0 <= i < j < |Dedup(s)| ==>
      IndexOf(s, Dedup(s)[i]) < IndexOf(s, Dedup(s)[j])
  {
    if |s| > 0 {
      var s', e := s[..|s| - 1], s[|s| - 1];
      assert s == s' + [e];
      DedupFirstOccurrenceOrder(s');
      var d := Dedup(s');
      forall y | y in s'
        ensures IndexOf(s, y) == IndexOf(s', y) < |s'|
      {
        IndexOfAppend(s', e, y);
      }
      if e !in d {
        assert IndexOf(s, e) == |s'|;
      }
    }
  }

  /** Sequences that are duplicate-free come out of `Dedup` unchanged. */
  lemma {:induction false} DedupOfDistinct<T(!new)>(s: seq<T>)
    requires NoDup(s)
    ensures Dedup(s) == s
  {
    if |s| > 0 {
      var s' := s[..|s| - 1];
      assert NoDup(s');
      DedupOfDistinct(s');
      assert s[|s| - 1] !in s';
    }
  }
}
